=== FILE: README.md ===
# create-fuse-app, modelled in Dafny

`create-fuse-app` is the command that adds the Fuse data layer to an existing
Next.js project. This model covers one run of its `createFuseApp()` routine:

1. It reads `package.json` and aborts unless `next` is among the dependencies
   or dev dependencies.
2. It installs `fuse` plus two development packages.
3. It scaffolds the API route (App Router `route.ts` or Pages Router `fuse.ts`,
   under `src/` or not) and the sample data node `types/User.ts`.
4. It hands the Next config (`next.config.js`, else `next.config.mjs`) to a
   rewrite and always writes the result to `next.config.js`.
5. It forces two keys into `.vscode/settings.json`, rewriting the file only when
   they differ.
6. It appends the `@0no-co/graphqlsp` language-service plugin to `tsconfig.json`
   unless one is already registered.

The model is written against the JavaScript semantics the program relies on:

- JSON values are the `Json` datatype.
- Reading a property of `null` throws a `TypeError`.
- Object spread copies an object's fields, an array's or string's elements
  under decimal-index keys, and nothing from other primitives.
- `?.` short-circuits, and `find` on a non-array throws.
- `mkdir` without `recursive` fails with `ENOENT` when the parent is missing.

The file system is a set of directory paths plus the contents of the few
files the program reads. A run is a pure function from that state to a
sequence of effects (installs, writes, notices), the state left behind, and
the error that ended it, if any.

Modules:

- `Wrappers`, `Paths`, `Failures`: `Option`, `Result`, paths as segment sequences, and the exceptions a run can end with.
- `JsValues`: JSON values, truthiness, property reads, object spread.
- `Dependencies`: the `next` dependency check.
- `ProjectLayout`: router detection (as written at line 50, and as intended), the route/types path table, directory creation.
- `RouteSnippet`: the text of the generated API route.
- `NextConfig`: which Next config is rewritten and where the result goes.
- `VscodeSettings`: `generateVscodeSettings` and the rewrite guard.
- `TsConfig`: the plugin lookup and the plugin append.
- `CreateFuseApp`: the whole run, and what a second run does.

The Next config rewrite itself (`rewrite-next`, a Babel plugin) is not part of
this model. It enters as a parameter `(source, isMjs) -> Option<code>`, where
`None` stands for a rewrite that threw.

## Model

| member | source | states |
|---|---|---|
| JsValues.Property | packages/create-fuse-app/src/index.ts:161-162 | Reading a named property throws a TypeError exactly on `null`. It yields a value exactly when the receiver is an object holding that key, and that value is the key's. |
| JsValues.Spread | packages/create-fuse-app/src/index.ts:194-196 | Spreading an object copies exactly its fields. An array or a string gives exactly the keys `0` to `n-1`, with element (or one-character string) `i` under key `i`. `null`, booleans and numbers give no keys. A plain-named key therefore only ever comes from an object. |
| JsValues.Indexed | packages/create-fuse-app/src/index.ts:30 | The keys of an indexed spread are exactly the decimal spellings of `0` to `n-1`, all digits, and key `i` holds element `i`. |
| JsValues.DecimalRoundTrip | packages/create-fuse-app/src/index.ts:30 | The decimal index keys a spread produces read back as the index they came from. |
| Dependencies.MergeDependencies | packages/create-fuse-app/src/index.ts:27-30 | The merged dependency map has exactly the keys of both groups. A dev dependency's value wins over a production one of the same name. |
| Dependencies.CheckDependencies | packages/create-fuse-app/src/index.ts:23-37 | A missing package.json gives ENOENT and unparsable JSON gives a SyntaxError. A `null` document gives a TypeError. Any other parsed manifest passes exactly when its merged dependency groups declare a truthy `next`, and the check then returns that merged map. It fails with "could not find next" exactly otherwise. |
| Dependencies.DevDependencyDecides | packages/create-fuse-app/src/index.ts:27-33 | For any object manifest, with whatever other keys, whose `devDependencies` object has a `next` entry: the check passes iff that entry is truthy, whatever the production entry says. |
| Dependencies.DependencyDecidesOtherwise | packages/create-fuse-app/src/index.ts:27-33 | For any object manifest without a `next` entry in `devDependencies` (the group missing, not an object, or lacking the key): the check passes iff `dependencies` is an object with a truthy `next`. |
| Dependencies.NamedManifestPasses | packages/create-fuse-app/src/index.ts:27-37 | `{"name": "app", "dependencies": {"next": "14.0.0"}}` passes the check. |
| Dependencies.NoGroupsFail | packages/create-fuse-app/src/index.ts:27-37 | A manifest with neither dependency group fails with "could not find next". |
| ProjectLayout.RouterDir | packages/create-fuse-app/src/index.ts:54-56 | The router directory is `app` or `pages`, under `src/` when the project uses it. |
| ProjectLayout.RoutePath | packages/create-fuse-app/src/index.ts:53-82 | The route file lies inside the router directory. Its name is `route.ts` exactly for the App Router and `fuse.ts` exactly for the Pages Router. It starts with `src` exactly when the project uses `src/`. |
| ProjectLayout.RoutePathTable | packages/create-fuse-app/src/index.ts:53-82 | The route is the router directory followed by `api/fuse/route.ts` for the App Router, and by `api/fuse.ts` for the Pages Router. |
| ProjectLayout.TypesPath | packages/create-fuse-app/src/index.ts:75-102 | The data node is `types/User.ts`, under `src/` when the project uses it. |
| ProjectLayout.RouteDirs | packages/create-fuse-app/src/index.ts:58-93 | The directories created for the route form a parent chain from the router directory down to the route file's parent. |
| ProjectLayout.EnsureDir | packages/create-fuse-app/src/index.ts:59-60 | Creating a directory succeeds iff it or its parent exists, adds exactly it, and otherwise fails with ENOENT naming it. |
| ProjectLayout.EnsureChain | packages/create-fuse-app/src/index.ts:58-67 | Creating a chain of directories succeeds iff the first one's parent (or the first one) exists. It then adds exactly the chain, and otherwise fails on the first one. |
| ProjectLayout.MakeDirs | packages/create-fuse-app/src/index.ts:58-73 | The directory work succeeds iff the route chain's first directory or its parent exists, and otherwise fails with ENOENT on that directory. On success it keeps every existing directory, adds exactly the chain and the types directory, and the chain's last directory exists. |
| ProjectLayout.ScaffoldWith | packages/create-fuse-app/src/index.ts:53-104 | Scaffolding succeeds iff the first route directory or the router directory exists. Otherwise it fails with ENOENT on the first route directory. On success it returns, for the caller to write, the route and types paths of the table and the router the route contents follow. No existing directory is lost. |
| ProjectLayout.ScaffoldWithDirs | packages/create-fuse-app/src/index.ts:58-98 | A successful scaffold adds only the route and types directories, creates all of them, and writes each file into a directory that exists by then. |
| ProjectLayout.ScaffoldWithSettles | packages/create-fuse-app/src/index.ts:58-98 | When the route and types directories all exist, scaffolding creates nothing and still writes both files. |
| ProjectLayout.ScaffoldWithSucceeds | packages/create-fuse-app/src/index.ts:53-104 | In a well-formed directory tree, scaffolding succeeds iff the router directory exists. |
| ProjectLayout.ScaffoldStep | packages/create-fuse-app/src/index.ts:49-104 | The step detects `src/` and the App Router and scaffolds accordingly: as written, `app/` is looked for at the project root; the intended variant looks for it where the code lives. A failure is ENOENT on the first route directory. Success returns the table's route and types paths and the detected router, and keeps every existing directory. |
| ProjectLayout.ScaffoldStepSucceeds | packages/create-fuse-app/src/index.ts:49-104 | In a well-formed tree, the step succeeds iff the router directory the detection picked exists. |
| ProjectLayout.ScaffoldAsWrittenSucceeds | packages/create-fuse-app/src/index.ts:49-104 | With the router detection as written, in a well-formed tree: a `src/` project succeeds iff `src/app/` exists when the root `app/` does, and iff `src/pages/` exists otherwise. Any other project succeeds iff `app/` or `pages/` exists. |
| ProjectLayout.SrcAppLayoutAbortsAsWritten | packages/create-fuse-app/src/index.ts:49-66 | A project with only `src/app/` makes the run as written pick the Pages Router and fail with ENOENT on `src/pages/api`. |
| ProjectLayout.IntendedScaffoldSucceeds | packages/create-fuse-app/src/index.ts:49-104 | With the App Router looked for where the code lives, scaffolding a well-formed tree succeeds iff the project has a router directory there. The route then lies inside that existing directory. |
| ProjectLayout.SrcAppLayoutScaffolded | packages/create-fuse-app/src/index.ts:49-63 | The `src/app/` project gets its route at `src/app/api/fuse/route.ts`. |
| ProjectLayout.ScaffoldSettles | packages/create-fuse-app/src/index.ts:49-104 | For the detection as written and the intended one alike: scaffolding the tree a successful scaffold left behind (with or without `.vscode`) makes the same choices and creates nothing new. |
| ProjectLayout.SettledScaffoldFiles | packages/create-fuse-app/src/index.ts:49-104 | Scaffolding such a tree again succeeds and writes a `route.ts` or `fuse.ts` and a `User.ts`. |
| ProjectLayout.ScaffoldWithSettlesAfter | packages/create-fuse-app/src/index.ts:53-104 | For fixed detection answers, scaffolding any superset of a successful scaffold's directories succeeds with the same files and creates nothing. |
| ProjectLayout.DetectionUnchanged | packages/create-fuse-app/src/index.ts:49-50 | The directories a scaffold creates do not change what either detection finds. |
| ProjectLayout.RouteMatchesSnippet | packages/create-fuse-app/src/index.ts:50-82 | For either detection, the route file is `route.ts` exactly when its contents are the App Router snippet. |
| RouteSnippet.CreateSnippet | packages/create-fuse-app/src/index.ts:261-274 | The snippet imports and instantiates the same handler. It ends with the `GET`/`POST` exports iff `appDir`, and with the default export iff not. |
| RouteSnippet.SnippetRouterRoundTrip | packages/create-fuse-app/src/index.ts:261-274 | The router a snippet was made for is recovered from its text. |
| NextConfig.SelectConfig | packages/create-fuse-app/src/index.ts:109-112 | `next.config.js` is chosen iff it exists, `next.config.mjs` only when it alone exists, and nothing when neither does. |
| NextConfig.ConfigStep | packages/create-fuse-app/src/index.ts:109-151 | The result is always written to `next.config.js`, and only when the rewrite returned non-empty code. The js file is rewritten with `isMjs` false, and the mjs file only when no js file exists, with `isMjs` true. A missing config yields exactly the manual-setup hint. |
| NextConfig.RewrittenMjsShadowed | packages/create-fuse-app/src/index.ts:109-144 | Once an mjs config has been rewritten into `next.config.js`, a later run behaves as if only that js file existed and ignores the mjs file. |
| VscodeSettings.GenerateVscodeSettings | packages/create-fuse-app/src/index.ts:276-282 | The result holds both forced keys with their fixed values. Its keys are the spread's plus those two, and every other key keeps its value. |
| VscodeSettings.DefaultSettings | packages/create-fuse-app/src/index.ts:276-282 | Called without settings, it yields exactly the two forced keys. |
| VscodeSettings.GenerateIdempotent | packages/create-fuse-app/src/index.ts:276-282 | Applying it twice gives the same settings as once. |
| VscodeSettings.NeedsRewrite | packages/create-fuse-app/src/index.ts:160-163 | The guard throws exactly on `null`, and what it throws is a TypeError. It declines to rewrite exactly when the settings are an object already holding both forced values. |
| VscodeSettings.GuardSkipsOnlyNoOps | packages/create-fuse-app/src/index.ts:160-169 | The guard skips the write iff the write would not change the settings. |
| VscodeSettings.SettingsStep | packages/create-fuse-app/src/index.ts:153-180 | A missing file gets exactly `generateVscodeSettings()`, the two forced keys. An unparsable one throws. A parsed file fails exactly when it is `null`, with a TypeError. Otherwise it is left alone iff it already holds both values; otherwise it is replaced by exactly `generateVscodeSettings` of its contents, so other keys are kept and nothing else is added. |
| VscodeSettings.SettingsStepSettles | packages/create-fuse-app/src/index.ts:153-180 | Settings the step wrote are left alone by the next step. |
| TsConfig.FindGraphqlsp | packages/create-fuse-app/src/index.ts:189-191 | The lookup is true iff some plugin named `@0no-co/graphqlsp` comes before any `null` element. It throws a TypeError iff a `null` element comes before any match, and is otherwise false. |
| TsConfig.UpdateTsConfig | packages/create-fuse-app/src/index.ts:182-214 | The update throws exactly when the lookup does. It leaves a config alone exactly when the plugin is registered. Otherwise it appends the plugin entry to the existing plugins and keeps every other top-level and `compilerOptions` key. |
| TsConfig.TsConfigStep | packages/create-fuse-app/src/index.ts:182-214 | A missing tsconfig is skipped and an unparsable one throws a SyntaxError. A parsed one throws a TypeError exactly when the lookup does, is left alone exactly when the plugin is registered, and otherwise gets the plugin appended with every other key kept. |
| TsConfig.UpdateIdempotent | packages/create-fuse-app/src/index.ts:188-208 | An updated config is left alone by the next update. |
| CreateFuseApp.ConfigureTooling | packages/create-fuse-app/src/index.ts:153-215 | After the settings and tsconfig steps succeed, the settings hold the forced keys and the tsconfig registers the plugin. Nothing else changes except possibly the `.vscode` directory. |
| CreateFuseApp.ToolingFollowsSteps | packages/create-fuse-app/src/index.ts:153-215 | The tooling part leaves each file exactly as `SettingsStep` and `TsConfigStep` computed, or unchanged when the step wrote nothing. Its effects are exactly the steps' writes, settings first. An error in the settings step ends it with no effect; an error in the tsconfig step ends it after the settings write. |
| CreateFuseApp.WiredToolingFollowsSteps | packages/create-fuse-app/src/index.ts:107-215 | A completed config wiring leaves both tooling files as the two steps computed them, and its effects end with exactly the steps' writes. |
| CreateFuseApp.ToolingAfterRun | packages/create-fuse-app/src/index.ts:14-221 | A completed run, for either detection, leaves the editor settings and the tsconfig exactly as the two steps computed them from the files it started with. So the tsconfig keeps every other key. The run's last effects are exactly the steps' writes. |
| CreateFuseApp.RunThroughWiring | packages/create-fuse-app/src/index.ts:38-215 | Past the check and a successful scaffold, a run is the two installs, the route and `User.ts` writes, then exactly what the config wiring over the scaffolded tree does. |
| CreateFuseApp.ConfiguredToolingIsNoOp | packages/create-fuse-app/src/index.ts:160-192 | Already-configured tooling causes no effects and no change. |
| CreateFuseApp.WireNextConfig | packages/create-fuse-app/src/index.ts:107-215 | After the config and tooling steps succeed, the settings hold the forced keys and the tsconfig registers the plugin. package.json is kept, and at most `.vscode` is added to the tree. |
| CreateFuseApp.WiringCompletes | packages/create-fuse-app/src/index.ts:107-215 | The config wiring completes exactly when both the settings step and the tsconfig step succeed, whatever the rewrite does. Otherwise it fails with the settings step's error, or failing that with the tsconfig step's. |
| CreateFuseApp.ToolingWritesOnlyTooling | packages/create-fuse-app/src/index.ts:153-215 | The tooling part writes no file other than `.vscode/settings.json` and `tsconfig.json`. |
| CreateFuseApp.NextConfigWrites | packages/create-fuse-app/src/index.ts:107-215 | The config wiring writes `next.config.js` exactly when the rewrite produced code, and never writes `next.config.mjs`. |
| CreateFuseApp.RunCompletes | packages/create-fuse-app/src/index.ts:38-215 | A run completes exactly when `next` is declared, every scaffold directory can be made, and both tooling steps succeed. A failing config rewrite never stops it. |
| CreateFuseApp.NextConfigWritten | packages/create-fuse-app/src/index.ts:107-151 | When the rewrite yields code, the first effect writes it to `next.config.js`, and the project then holds that code there. Without any config the first effect is the manual-setup hint. Otherwise `next.config.js` is unchanged, and `next.config.mjs` is never changed. |
| CreateFuseApp.ApplyScaffold | packages/create-fuse-app/src/index.ts:83-215 | After writing the sources and wiring the config, a completed run has the tooling configured. The tree is the scaffold's, plus possibly `.vscode`. |
| CreateFuseApp.SourcesWrittenFirst | packages/create-fuse-app/src/index.ts:83-151 | The route module (with the router's snippet) and the `User.ts` data node are the first two writes. Everything after them is the config wiring. |
| CreateFuseApp.ScaffoldAndWire | packages/create-fuse-app/src/index.ts:47-215 | A completed scaffold-and-wire had a successful scaffold step, keeps package.json, leaves the scaffold's tree (plus possibly `.vscode`), and configures the tooling. |
| CreateFuseApp.Run | packages/create-fuse-app/src/index.ts:14-221 | `Run(p, rewrite, AsWritten)` is the program. Without `next`, nothing at all happens. Otherwise both installs come first, and a run that completes leaves the settings and tsconfig configured. |
| CreateFuseApp.RunScaffoldEffects | packages/create-fuse-app/src/index.ts:38-151 | Past the dependency check, a failed `mkdir` ends the run right after the installs, with nothing written and the project unchanged. Otherwise the route module and `User.ts` are effects 3 and 4. Rewritten Next config code is effect 5, written to `next.config.js`. |
| CreateFuseApp.SrcAppRunAbortsAsWritten | packages/create-fuse-app/src/index.ts:38-66 | The program run on a project with only `src/app/` installs both packages, then fails with ENOENT on `src/pages/api` and writes nothing. |
| CreateFuseApp.SrcAppRunScaffoldsIntended | packages/create-fuse-app/src/index.ts:38-104 | With the intended detection the same project gets `src/app/api/fuse/route.ts` with the App Router snippet and `src/types/User.ts`. |
| CreateFuseApp.WiringConfiguredProject | packages/create-fuse-app/src/index.ts:107-215 | With the tooling configured, wiring the config completes and writes neither tooling file. |
| CreateFuseApp.ScaffoldWritesOnlySources | packages/create-fuse-app/src/index.ts:83-104 | Writing the route and `User.ts` touches neither tooling file: such a write comes only from the config wiring. |
| CreateFuseApp.ApplySettledScaffold | packages/create-fuse-app/src/index.ts:83-215 | Writing a scaffold's sources into a project whose tooling is configured completes and writes neither tooling file. |
| CreateFuseApp.RunAfterCheck | packages/create-fuse-app/src/index.ts:38-44 | Past the dependency check, the installs write no file, so the run fails and writes exactly as its scaffold-and-wire part does. |
| CreateFuseApp.ScaffoldingSetUpProject | packages/create-fuse-app/src/index.ts:47-215 | For either detection, scaffolding and wiring a project that a completed run left behind completes and writes neither tooling file. |
| CreateFuseApp.SuccessfulRun | packages/create-fuse-app/src/index.ts:14-221 | For either detection, a completed run had a successful scaffold step. It kept package.json, left the scaffold's tree (plus possibly `.vscode`), and configured the tooling. |
| CreateFuseApp.RerunLeavesToolingAlone | packages/create-fuse-app/src/index.ts:14-221 | For the program as written, and for the intended detection alike, a second run on what a completed run left behind completes too and writes neither `.vscode/settings.json` nor `tsconfig.json`. |

## Left out

- Installing packages (`getPkgManager`, `install`) is an effect in the output only. The changes it makes to package.json and `node_modules` are not modelled.
- Prompts, the spinner and colours are not modelled. The manual-setup hint is kept as a `Notice` with its exact text.
- The Babel transform and `rewrite-next` are a `Rewriter` parameter. Which rewrites they perform is not part of this model.
- A file that exists but cannot be read is not modelled. Inside the Next config `try` such an error is swallowed anyway.
- `JSON.stringify` layout and key order are left out: written JSON is a `Json` value, not text.
- The text of the sample data node (`initialTypeSnippet`) is a single `UserTypeTemplate` constant, since nothing depends on its contents.
- JSON numbers are reals. Only their zero-ness matters here, for truthiness.
- A string's spread keys index characters, not UTF-16 code units.
- `existsSync` is true for files as well as directories; only directories are tracked here.
- CreateFuseApp.Run: the two installs are assumed to succeed; a failing install, which aborts the real run, is not modelled.
- `Run` takes the router detection as a parameter: `AsWritten` is the program's root-`app` check at line 50, and `Intended` is the correction described under Findings. The lemmas about runs hold for both.

## Findings

| source | as written | input that shows it | evidently intended | confidence | as-written member | corrected member |
|---|---|---|---|---|---|---|
| packages/create-fuse-app/src/index.ts:50 | The App Router is detected by looking for `app/` at the project root, even when the project keeps its routes under `src/`. | A project with `src/app/` and no `app/` or `src/pages/`. The run picks the Pages Router and creates `src/pages/api` without `recursive`, which fails with ENOENT after the packages were installed. | In a `src/` project, look for `src/app/`, which gives the route `src/app/api/fuse/route.ts`. | medium, not executed | ProjectLayout.SrcAppLayoutAbortsAsWritten | ProjectLayout.IntendedScaffoldSucceeds |

The as-written detection is `ProjectLayout.ScaffoldStep(dirs, AsWritten)`,
with its success condition in `ProjectLayout.ScaffoldAsWrittenSucceeds`; at the
level of a whole run, `CreateFuseApp.SrcAppRunAbortsAsWritten` shows the abort.
The corrected detection is `ScaffoldStep(dirs, Intended)`.
`ProjectLayout.SrcAppLayoutScaffolded` and
`CreateFuseApp.SrcAppRunScaffoldsIntended` show it on the same input.

=== FILE: create_fuse_app.dfy ===
/** One run of the CLI over a project, as a pure function from the project's
    state to the effects performed, the state left behind and the error, if any,
    that ended the run. */
module CreateFuseApp {
  import opened Wrappers
  import opened Paths
  import opened Failures
  import opened JsValues
  import Dependencies
  import ProjectLayout
  import NextConfig
  import VscodeSettings
  import TsConfig

  /** What the run reads: package.json, the directory tree, the two candidate
      Next config files (`None` when absent) and the two JSON config files. */
  datatype Project = Project(
    packageJson: JsonFile,
    dirs: set<Path>,
    nextConfigJs: Option<string>,
    nextConfigMjs: Option<string>,
    vscodeSettings: JsonFile,
    tsConfig: JsonFile)

  datatype DependencyKind = Prod | Dev

  datatype Content =
    | Text(text: string)
    | RouteModule(appRouter: bool)  // the text `RouteSnippet.CreateSnippet(appRouter)`
    | UserTypeTemplate              // the fixed sample data-node module
    | JsonText(value: Json)         // `JSON.stringify(value, undefined, 2)`

  datatype Effect =
    | Install(kind: DependencyKind, packages: seq<string>)
    | Write(path: Path, content: Content)
    | Notice(message: string)

  datatype RunResult = RunResult(effects: seq<Effect>, project: Project, failure: Option<Failure>)

  const Installs: seq<Effect> := [
    Install(Prod, ["fuse"]),
    Install(Dev, ["@0no-co/graphqlsp", "@graphql-typed-document-node/core"])]

  predicate WritesTo(effects: seq<Effect>, path: Path) {
    exists i :: 0 <= i < |effects| && effects[i].Write? && effects[i].path == path
  }

  /** The editor settings hold both forced keys. */
  predicate SettingsReady(file: JsonFile) {
    file.Parsed? && file.value.Obj? && VscodeSettings.HasForcedKeys(file.value.fields)
  }

  /** The tsconfig, if any, registers the language-service plugin. */
  predicate TsConfigReady(file: JsonFile) {
    file.Missing? || (file.Parsed? && TsConfig.Registered(file.value))
  }

  /** Both tooling files are configured. */
  predicate ToolingReady(p: Project) {
    SettingsReady(p.vscodeSettings) && TsConfigReady(p.tsConfig)
  }

  /** The run ended without an error and wrote neither tooling file. */
  predicate ToolingUntouched(r: RunResult) {
    && r.failure.None?
    && !WritesTo(r.effects, VscodeSettings.SettingsPath)
    && !WritesTo(r.effects, TsConfig.TsConfigPath)
  }

  /** The scaffold writes a route module and the `User.ts` data node. */
  predicate SourceNames(scaffold: ProjectLayout.Scaffold) {
    && |scaffold.route| > 0 && scaffold.route[|scaffold.route| - 1] in {"route.ts", "fuse.ts"}
    && |scaffold.types| > 0 && scaffold.types[|scaffold.types| - 1] == "User.ts"
  }

  /** The file a tooling step leaves behind: what it wrote, else the old file. */
  function AfterStep(file: JsonFile, step: Result<Option<map<string, Json>>, Failure>): JsonFile {
    if step.Ok? && step.value.Some? then Parsed(Obj(step.value.value)) else file
  }

  /** The write a tooling step asks for, if any. */
  function StepWrite(path: Path, step: Result<Option<map<string, Json>>, Failure>): seq<Effect> {
    if step.Ok? && step.value.Some? then [Write(path, JsonText(Obj(step.value.value)))] else []
  }

  /** The editor-settings and tsconfig part of `createFuseApp`, with their own
      effects only. */
  function ConfigureTooling(p: Project): (r: RunResult)
    ensures r.failure.None? ==> ToolingReady(r.project)
    ensures r.project.packageJson == p.packageJson && r.project.nextConfigJs == p.nextConfigJs
    ensures r.project.nextConfigMjs == p.nextConfigMjs
    ensures r.project.dirs == p.dirs || r.project.dirs == p.dirs + {[".vscode"]}
  {
    match VscodeSettings.SettingsStep(p.vscodeSettings)
    case Err(e) => RunResult([], p, Some(e))
    case Ok(settings) =>
      var p1 :=
        if settings.None? then p
        else p.(dirs := p.dirs + {[".vscode"]}, vscodeSettings := Parsed(Obj(settings.value)));
      var e1 := if settings.None? then [] else [Write(VscodeSettings.SettingsPath, JsonText(Obj(settings.value)))];
      match TsConfig.TsConfigStep(p.tsConfig)
      case Err(e) => RunResult(e1, p1, Some(e))
      case Ok(tsConfig) =>
        if tsConfig.None? then
          RunResult(e1, p1, None)
        else
          TsConfig.UpdateIdempotent(p.tsConfig.value);
          RunResult(e1 + [Write(TsConfig.TsConfigPath, JsonText(Obj(tsConfig.value)))],
                    p1.(tsConfig := Parsed(Obj(tsConfig.value))), None)
  }

  /** The Next config part of `createFuseApp`: hand the config to the rewrite,
      then configure the tooling. */
  function WireNextConfig(p: Project, rewrite: NextConfig.Rewriter): (r: RunResult)
    ensures r.failure.None? ==> ToolingReady(r.project)
    ensures r.project.packageJson == p.packageJson
    ensures r.project.dirs == p.dirs || r.project.dirs == p.dirs + {[".vscode"]}
    ensures r.project.nextConfigMjs == p.nextConfigMjs
  {
    var (p1, e1) :=
      match NextConfig.ConfigStep(p.nextConfigJs, p.nextConfigMjs, rewrite)
      case Rewritten(target, code) => (p.(nextConfigJs := Some(code)), [Write(target.FilePath(), Text(code))])
      case Untouched => (p, [])
      case NoConfig(message) => (p, [Notice(message)]);
    var rest := ConfigureTooling(p1);
    RunResult(e1 + rest.effects, rest.project, rest.failure)
  }

  /** Write the route and the data node the scaffold chose, then wire the config. */
  function ApplyScaffold(p: Project, scaffold: ProjectLayout.Scaffold, rewrite: NextConfig.Rewriter): (r: RunResult)
    ensures r.failure.None? ==> ToolingReady(r.project)
    ensures r.project.packageJson == p.packageJson
    ensures r.project.dirs == scaffold.dirs || r.project.dirs == scaffold.dirs + {[".vscode"]}
  {
    var written := [Write(scaffold.route, RouteModule(scaffold.appRouter)), Write(scaffold.types, UserTypeTemplate)];
    var rest := WireNextConfig(p.(dirs := scaffold.dirs), rewrite);
    RunResult(written + rest.effects, rest.project, rest.failure)
  }

  /** The scaffolding part of `createFuseApp` (route and data node), followed by
      the config wiring and the tooling. */
  function ScaffoldAndWire(p: Project, rewrite: NextConfig.Rewriter, detection: ProjectLayout.Detection): (r: RunResult)
    ensures r.failure.None? ==> ToolingReady(r.project)
    ensures r.project.packageJson == p.packageJson
    ensures r.failure.None? ==>
              && ProjectLayout.ScaffoldStep(p.dirs, detection).Ok?
              && var scaffolded := ProjectLayout.ScaffoldStep(p.dirs, detection).value.dirs;
              r.project.dirs == scaffolded || r.project.dirs == scaffolded + {[".vscode"]}
  {
    match ProjectLayout.ScaffoldStep(p.dirs, detection)
    case Err(e) => RunResult([], p, Some(e))
    case Ok(scaffold) => ApplyScaffold(p, scaffold, rewrite)
  }

  /** `createFuseApp()` with the config rewrite as a parameter. With `AsWritten`
      this is the program; `Intended` swaps in the App Router check it evidently
      meant. */
  function Run(p: Project, rewrite: NextConfig.Rewriter, detection: ProjectLayout.Detection): (r: RunResult)
    // without `next` nothing at all happens
    ensures Dependencies.CheckDependencies(p.packageJson).Err? ==>
              r == RunResult([], p, Some(Dependencies.CheckDependencies(p.packageJson).error))
    // otherwise both installs come first
    ensures Dependencies.CheckDependencies(p.packageJson).Ok? ==>
              |r.effects| >= 2 && r.effects[..2] == Installs
    ensures r.failure.None? ==> ToolingReady(r.project)
  {
    match Dependencies.CheckDependencies(p.packageJson)
    case Err(e) => RunResult([], p, Some(e))
    case Ok(_) =>
      var rest := ScaffoldAndWire(p, rewrite, detection);
      RunResult(Installs + rest.effects, rest.project, rest.failure)
  }

  /** The tooling steps leave and write exactly what `SettingsStep` and
      `TsConfigStep` return, in that order, and nothing else; an error in
      either ends the run there. */
  lemma ToolingFollowsSteps(p: Project)
    ensures VscodeSettings.SettingsStep(p.vscodeSettings).Err? ==>
              ConfigureTooling(p) == RunResult([], p, Some(VscodeSettings.SettingsStep(p.vscodeSettings).error))
    ensures VscodeSettings.SettingsStep(p.vscodeSettings).Ok? ==>
              ConfigureTooling(p).project.vscodeSettings == AfterStep(p.vscodeSettings, VscodeSettings.SettingsStep(p.vscodeSettings))
    ensures VscodeSettings.SettingsStep(p.vscodeSettings).Ok? && TsConfig.TsConfigStep(p.tsConfig).Err? ==>
              && ConfigureTooling(p).failure == Some(TsConfig.TsConfigStep(p.tsConfig).error)
              && ConfigureTooling(p).effects == StepWrite(VscodeSettings.SettingsPath, VscodeSettings.SettingsStep(p.vscodeSettings))
              && ConfigureTooling(p).project.tsConfig == p.tsConfig
    ensures VscodeSettings.SettingsStep(p.vscodeSettings).Ok? && TsConfig.TsConfigStep(p.tsConfig).Ok? ==>
              && ConfigureTooling(p).failure.None?
              && ConfigureTooling(p).effects == StepWrite(VscodeSettings.SettingsPath, VscodeSettings.SettingsStep(p.vscodeSettings))
                                              + StepWrite(TsConfig.TsConfigPath, TsConfig.TsConfigStep(p.tsConfig))
              && ConfigureTooling(p).project.tsConfig == AfterStep(p.tsConfig, TsConfig.TsConfigStep(p.tsConfig))
  {
  }

  /** `effects` ends with `tail`. */
  predicate EndsWithEffects(effects: seq<Effect>, tail: seq<Effect>) {
    |effects| >= |tail| && effects[|effects| - |tail|..] == tail
  }

  lemma EndsWithAfter(front: seq<Effect>, effects: seq<Effect>, tail: seq<Effect>)
    requires EndsWithEffects(effects, tail)
    ensures EndsWithEffects(front + effects, tail)
  {
    assert (front + effects)[|front + effects| - |tail|..] == effects[|effects| - |tail|..];
  }

  /** The tooling files a completed wiring leaves, and the writes it ends with,
      are exactly those of the two steps. */
  lemma WiredToolingFollowsSteps(p: Project, rewrite: NextConfig.Rewriter)
    requires WireNextConfig(p, rewrite).failure.None?
    ensures WireNextConfig(p, rewrite).project.vscodeSettings ==
              AfterStep(p.vscodeSettings, VscodeSettings.SettingsStep(p.vscodeSettings))
    ensures WireNextConfig(p, rewrite).project.tsConfig == AfterStep(p.tsConfig, TsConfig.TsConfigStep(p.tsConfig))
    ensures EndsWithEffects(WireNextConfig(p, rewrite).effects,
                     StepWrite(VscodeSettings.SettingsPath, VscodeSettings.SettingsStep(p.vscodeSettings))
                     + StepWrite(TsConfig.TsConfigPath, TsConfig.TsConfigStep(p.tsConfig)))
  {
    var outcome := NextConfig.ConfigStep(p.nextConfigJs, p.nextConfigMjs, rewrite);
    var configured := if outcome.Rewritten? then p.(nextConfigJs := Some(outcome.code)) else p;
    var front := match outcome
      case Rewritten(target, code) => [Write(target.FilePath(), Text(code))]
      case Untouched => []
      case NoConfig(message) => [Notice(message)];
    assert WireNextConfig(p, rewrite).effects == front + ConfigureTooling(configured).effects;
    ToolingFollowsSteps(configured);
    EndsWithAfter(front, ConfigureTooling(configured).effects,
                  StepWrite(VscodeSettings.SettingsPath, VscodeSettings.SettingsStep(p.vscodeSettings))
                  + StepWrite(TsConfig.TsConfigPath, TsConfig.TsConfigStep(p.tsConfig)));
  }

  /** A completed run leaves the editor settings and the tsconfig exactly as the
      two steps computed them from the files it started with (so the tsconfig
      keeps every other key, by `TsConfig.TsConfigStep`), and its last effects
      are exactly the steps' writes. */
  lemma ToolingAfterRun(p: Project, rewrite: NextConfig.Rewriter, detection: ProjectLayout.Detection)
    requires Run(p, rewrite, detection).failure.None?
    ensures Run(p, rewrite, detection).project.vscodeSettings ==
              AfterStep(p.vscodeSettings, VscodeSettings.SettingsStep(p.vscodeSettings))
    ensures Run(p, rewrite, detection).project.tsConfig == AfterStep(p.tsConfig, TsConfig.TsConfigStep(p.tsConfig))
    ensures EndsWithEffects(Run(p, rewrite, detection).effects,
                     StepWrite(VscodeSettings.SettingsPath, VscodeSettings.SettingsStep(p.vscodeSettings))
                     + StepWrite(TsConfig.TsConfigPath, TsConfig.TsConfigStep(p.tsConfig)))
  {
    assert Dependencies.CheckDependencies(p.packageJson).Ok?;
    var scaffold := ProjectLayout.ScaffoldStep(p.dirs, detection).value;
    var wired := WireNextConfig(p.(dirs := scaffold.dirs), rewrite);
    RunThroughWiring(p, rewrite, detection);
    WiredToolingFollowsSteps(p.(dirs := scaffold.dirs), rewrite);
    var written := [Write(scaffold.route, RouteModule(scaffold.appRouter)), Write(scaffold.types, UserTypeTemplate)];
    EndsWithAfter(Installs + written, wired.effects,
                  StepWrite(VscodeSettings.SettingsPath, VscodeSettings.SettingsStep(p.vscodeSettings))
                  + StepWrite(TsConfig.TsConfigPath, TsConfig.TsConfigStep(p.tsConfig)));
  }

  /** Past the check and a successful scaffold, the run ends as the config
      wiring over the scaffolded tree does, after four effects of its own. */
  lemma RunThroughWiring(p: Project, rewrite: NextConfig.Rewriter, detection: ProjectLayout.Detection)
    requires Dependencies.CheckDependencies(p.packageJson).Ok?
    requires ProjectLayout.ScaffoldStep(p.dirs, detection).Ok?
    ensures var s := ProjectLayout.ScaffoldStep(p.dirs, detection).value;
            var wired := WireNextConfig(p.(dirs := s.dirs), rewrite);
            Run(p, rewrite, detection) ==
              RunResult(Installs + [Write(s.route, RouteModule(s.appRouter)), Write(s.types, UserTypeTemplate)] + wired.effects,
                        wired.project, wired.failure)
  {
    ScaffoldedThenWired(p, rewrite, detection);
    var s := ProjectLayout.ScaffoldStep(p.dirs, detection).value;
    var written := [Write(s.route, RouteModule(s.appRouter)), Write(s.types, UserTypeTemplate)];
    var wired := WireNextConfig(p.(dirs := s.dirs), rewrite);
    assert ScaffoldAndWire(p, rewrite, detection).effects == written + wired.effects;
    assert Installs + (written + wired.effects) == Installs + written + wired.effects;
  }

  /** The tooling part writes no file other than the two tooling files. */
  lemma ToolingWritesOnlyTooling(p: Project, path: Path)
    requires path != VscodeSettings.SettingsPath && path != TsConfig.TsConfigPath
    ensures !WritesTo(ConfigureTooling(p).effects, path)
  {
    ToolingFollowsSteps(p);
    var settings := StepWrite(VscodeSettings.SettingsPath, VscodeSettings.SettingsStep(p.vscodeSettings));
    var tsConfig := StepWrite(TsConfig.TsConfigPath, TsConfig.TsConfigStep(p.tsConfig));
    WritesToConcat(settings, tsConfig, path);
  }

  /** The wiring completes exactly when both tooling steps succeed: whatever
      the rewrite does, it never ends the run. Otherwise it ends with the
      settings step's error, or failing that the tsconfig step's. */
  lemma WiringCompletes(p: Project, rewrite: NextConfig.Rewriter)
    ensures WireNextConfig(p, rewrite).failure.None? <==>
              VscodeSettings.SettingsStep(p.vscodeSettings).Ok? && TsConfig.TsConfigStep(p.tsConfig).Ok?
    ensures VscodeSettings.SettingsStep(p.vscodeSettings).Err? ==>
              WireNextConfig(p, rewrite).failure == Some(VscodeSettings.SettingsStep(p.vscodeSettings).error)
    ensures VscodeSettings.SettingsStep(p.vscodeSettings).Ok? && TsConfig.TsConfigStep(p.tsConfig).Err? ==>
              WireNextConfig(p, rewrite).failure == Some(TsConfig.TsConfigStep(p.tsConfig).error)
  {
    var outcome := NextConfig.ConfigStep(p.nextConfigJs, p.nextConfigMjs, rewrite);
    ToolingFollowsSteps(if outcome.Rewritten? then p.(nextConfigJs := Some(outcome.code)) else p);
  }

  /** The wiring writes `next.config.js` exactly when the rewrite produced code,
      and never writes `next.config.mjs`. */
  lemma NextConfigWrites(p: Project, rewrite: NextConfig.Rewriter)
    ensures WritesTo(WireNextConfig(p, rewrite).effects, ["next.config.js"]) <==>
              NextConfig.ConfigStep(p.nextConfigJs, p.nextConfigMjs, rewrite).Rewritten?
    ensures !WritesTo(WireNextConfig(p, rewrite).effects, ["next.config.mjs"])
  {
    var outcome := NextConfig.ConfigStep(p.nextConfigJs, p.nextConfigMjs, rewrite);
    var configured := if outcome.Rewritten? then p.(nextConfigJs := Some(outcome.code)) else p;
    var front := match outcome
      case Rewritten(target, code) => [Write(target.FilePath(), Text(code))]
      case Untouched => []
      case NoConfig(message) => [Notice(message)];
    var tooling := ConfigureTooling(configured).effects;
    assert WireNextConfig(p, rewrite).effects == front + tooling;
    ToolingWritesOnlyTooling(configured, ["next.config.js"]);
    ToolingWritesOnlyTooling(configured, ["next.config.mjs"]);
    WritesToConcat(front, tooling, ["next.config.js"]);
    WritesToConcat(front, tooling, ["next.config.mjs"]);
    if outcome.Rewritten? {
      assert front[0] == Write(["next.config.js"], Text(outcome.code));
    }
  }

  /** When a run completes: `next` is declared, the scaffold's directories can
      be made, and both tooling steps succeed. A failing rewrite of the Next
      config never stops it. */
  lemma RunCompletes(p: Project, rewrite: NextConfig.Rewriter, detection: ProjectLayout.Detection)
    ensures Run(p, rewrite, detection).failure.None? <==>
              && Dependencies.CheckDependencies(p.packageJson).Ok?
              && ProjectLayout.ScaffoldStep(p.dirs, detection).Ok?
              && VscodeSettings.SettingsStep(p.vscodeSettings).Ok?
              && TsConfig.TsConfigStep(p.tsConfig).Ok?
  {
    if Dependencies.CheckDependencies(p.packageJson).Ok? {
      if ProjectLayout.ScaffoldStep(p.dirs, detection).Ok? {
        RunThroughWiring(p, rewrite, detection);
        WiringCompletes(p.(dirs := ProjectLayout.ScaffoldStep(p.dirs, detection).value.dirs), rewrite);
      } else {
        RunScaffoldEffects(p, rewrite, detection);
      }
    }
  }

  /** Past the installs, a failed `mkdir` ends the run at once; otherwise the
      route and the data node are the next two writes, and new Next config code
      follows them in `next.config.js`. */
  lemma RunScaffoldEffects(p: Project, rewrite: NextConfig.Rewriter, detection: ProjectLayout.Detection)
    requires Dependencies.CheckDependencies(p.packageJson).Ok?
    ensures ProjectLayout.ScaffoldStep(p.dirs, detection).Err? ==>
              Run(p, rewrite, detection) == RunResult(Installs, p, Some(ProjectLayout.ScaffoldStep(p.dirs, detection).error))
    ensures ProjectLayout.ScaffoldStep(p.dirs, detection).Ok? ==>
              var s := ProjectLayout.ScaffoldStep(p.dirs, detection).value;
              var r := Run(p, rewrite, detection);
              && |r.effects| >= 4
              && r.effects[2] == Write(s.route, RouteModule(s.appRouter))
              && r.effects[3] == Write(s.types, UserTypeTemplate)
              && (NextConfig.ConfigStep(p.nextConfigJs, p.nextConfigMjs, rewrite).Rewritten? ==>
                    && |r.effects| >= 5
                    && r.effects[4] == Write(["next.config.js"],
                                             Text(NextConfig.ConfigStep(p.nextConfigJs, p.nextConfigMjs, rewrite).code)))
  {
    if ProjectLayout.ScaffoldStep(p.dirs, detection).Ok? {
      var scaffold := ProjectLayout.ScaffoldStep(p.dirs, detection).value;
      SourcesWrittenFirst(p, scaffold, rewrite);
      NextConfigWritten(p.(dirs := scaffold.dirs), rewrite);
    }
  }

  /** The route module and the data node are the first two writes of the
      scaffold, before anything the config wiring does. */
  lemma SourcesWrittenFirst(p: Project, scaffold: ProjectLayout.Scaffold, rewrite: NextConfig.Rewriter)
    ensures var r := ApplyScaffold(p, scaffold, rewrite);
            && |r.effects| >= 2
            && r.effects[0] == Write(scaffold.route, RouteModule(scaffold.appRouter))
            && r.effects[1] == Write(scaffold.types, UserTypeTemplate)
            && r.effects[2..] == WireNextConfig(p.(dirs := scaffold.dirs), rewrite).effects
  {
  }

  /** New Next config code always lands in `next.config.js`, as the first
      effect of the wiring; without any config the user gets the hint instead,
      and the `.mjs` file is never changed. */
  lemma NextConfigWritten(p: Project, rewrite: NextConfig.Rewriter)
    ensures p.nextConfigJs.None? && p.nextConfigMjs.None? ==>
              |WireNextConfig(p, rewrite).effects| > 0 && WireNextConfig(p, rewrite).effects[0] == Notice(NextConfig.ManualHint)
    ensures var outcome := NextConfig.ConfigStep(p.nextConfigJs, p.nextConfigMjs, rewrite);
            outcome.Rewritten? ==>
              && |WireNextConfig(p, rewrite).effects| > 0 && WireNextConfig(p, rewrite).effects[0] == Write(["next.config.js"], Text(outcome.code))
              && WireNextConfig(p, rewrite).project.nextConfigJs == Some(outcome.code)
    ensures !NextConfig.ConfigStep(p.nextConfigJs, p.nextConfigMjs, rewrite).Rewritten? ==>
              WireNextConfig(p, rewrite).project.nextConfigJs == p.nextConfigJs
    ensures WireNextConfig(p, rewrite).project.nextConfigMjs == p.nextConfigMjs
  {
  }

  /** Tooling that is already configured is left alone. */
  lemma ConfiguredToolingIsNoOp(p: Project)
    requires ToolingReady(p)
    ensures ConfigureTooling(p) == RunResult([], p, None)
  {
  }

  lemma WritesToConcat(a: seq<Effect>, b: seq<Effect>, path: Path)
    ensures WritesTo(a + b, path) <==> WritesTo(a, path) || WritesTo(b, path)
  {
    if WritesTo(a + b, path) {
      var i :| 0 <= i < |a + b| && (a + b)[i].Write? && (a + b)[i].path == path;
      if i >= |a| {
        assert b[i - |a|] == (a + b)[i];
      }
    }
    if WritesTo(a, path) {
      var i :| 0 <= i < |a| && a[i].Write? && a[i].path == path;
      assert (a + b)[i] == a[i];
    }
    if WritesTo(b, path) {
      var i :| 0 <= i < |b| && b[i].Write? && b[i].path == path;
      assert (a + b)[i + |a|] == b[i];
    }
  }

  /** With the tooling configured, wiring the Next config writes at most the
      config file itself. */
  lemma WiringConfiguredProject(p: Project, rewrite: NextConfig.Rewriter)
    requires ToolingReady(p)
    ensures ToolingUntouched(WireNextConfig(p, rewrite))
  {
    var outcome := NextConfig.ConfigStep(p.nextConfigJs, p.nextConfigMjs, rewrite);
    var p1 := if outcome.Rewritten? then p.(nextConfigJs := Some(outcome.code)) else p;
    ConfiguredToolingIsNoOp(p1);
  }

  /** Scaffolding writes only the route and the data node. */
  lemma ScaffoldWritesOnlySources(p: Project, scaffold: ProjectLayout.Scaffold,
                                                     rewrite: NextConfig.Rewriter, path: Path)
    requires SourceNames(scaffold)
    requires path == VscodeSettings.SettingsPath || path == TsConfig.TsConfigPath
    ensures WritesTo(ApplyScaffold(p, scaffold, rewrite).effects, path) <==>
              WritesTo(WireNextConfig(p.(dirs := scaffold.dirs), rewrite).effects, path)
  {
    var written := [Write(scaffold.route, RouteModule(scaffold.appRouter)), Write(scaffold.types, UserTypeTemplate)];
    var rest := WireNextConfig(p.(dirs := scaffold.dirs), rewrite);
    assert path[|path| - 1] in {"settings.json", "tsconfig.json"};
    assert !WritesTo(written, path);
    WritesToConcat(written, rest.effects, path);
  }

  /** What a successful run leaves behind. */
  lemma SuccessfulRun(p: Project, rewrite: NextConfig.Rewriter, detection: ProjectLayout.Detection)
    requires Run(p, rewrite, detection).failure.None?
    ensures ProjectLayout.ScaffoldStep(p.dirs, detection).Ok?
    ensures var q := Run(p, rewrite, detection).project;
            var scaffolded := ProjectLayout.ScaffoldStep(p.dirs, detection).value.dirs;
            && q.packageJson == p.packageJson
            && (q.dirs == scaffolded || q.dirs == scaffolded + {[".vscode"]})
            && ToolingReady(q)
  {
    assert Dependencies.CheckDependencies(p.packageJson).Ok?;
    var first := ScaffoldAndWire(p, rewrite, detection);
    assert Run(p, rewrite, detection) == RunResult(Installs + first.effects, first.project, first.failure);
  }

  lemma ScaffoldingSetUpProject(q: Project, dirs: set<Path>, rewrite: NextConfig.Rewriter,
                                                   detection: ProjectLayout.Detection)
    requires ProjectLayout.ScaffoldStep(dirs, detection).Ok?
    requires var scaffolded := ProjectLayout.ScaffoldStep(dirs, detection).value.dirs;
             q.dirs == scaffolded || q.dirs == scaffolded + {[".vscode"]}
    requires ToolingReady(q)
    ensures ToolingUntouched(ScaffoldAndWire(q, rewrite, detection))
  {
    ProjectLayout.SettledScaffoldFiles(dirs, q.dirs, detection);
    ApplySettledScaffold(q, ProjectLayout.ScaffoldStep(q.dirs, detection).value, rewrite);
    ScaffoldedThenWired(q, rewrite, detection);
  }

  lemma ScaffoldedThenWired(p: Project, rewrite: NextConfig.Rewriter, detection: ProjectLayout.Detection)
    requires ProjectLayout.ScaffoldStep(p.dirs, detection).Ok?
    ensures ScaffoldAndWire(p, rewrite, detection) == ApplyScaffold(p, ProjectLayout.ScaffoldStep(p.dirs, detection).value, rewrite)
  {
  }

  /** Writing the scaffold's two source files into a project whose tooling is
      configured succeeds and touches neither tooling file. */
  lemma ApplySettledScaffold(q: Project, scaffold: ProjectLayout.Scaffold, rewrite: NextConfig.Rewriter)
    requires SourceNames(scaffold)
    requires ToolingReady(q)
    ensures ToolingUntouched(ApplyScaffold(q, scaffold, rewrite))
  {
    WiringConfiguredProject(q.(dirs := scaffold.dirs), rewrite);
    ScaffoldWritesOnlySources(q, scaffold, rewrite, VscodeSettings.SettingsPath);
    ScaffoldWritesOnlySources(q, scaffold, rewrite, TsConfig.TsConfigPath);
  }

  /** Past the dependency check, a run adds only the installs in front of the
      rest, and installs write no file. */
  lemma RunAfterCheck(p: Project, rewrite: NextConfig.Rewriter, detection: ProjectLayout.Detection,
                                         path: Path)
    requires Dependencies.CheckDependencies(p.packageJson).Ok?
    ensures Run(p, rewrite, detection).failure == ScaffoldAndWire(p, rewrite, detection).failure
    ensures WritesTo(Run(p, rewrite, detection).effects, path) <==>
              WritesTo(ScaffoldAndWire(p, rewrite, detection).effects, path)
  {
    var rest := ScaffoldAndWire(p, rewrite, detection);
    var run := Run(p, rewrite, detection);
    assert run.effects == Installs + rest.effects && run.failure == rest.failure;
    assert !WritesTo(Installs, path);
    WritesToConcat(Installs, rest.effects, path);
  }

  /** After a successful run, a second run succeeds too and writes neither the
      editor settings nor the tsconfig. */
  lemma RerunLeavesToolingAlone(p: Project, rewrite: NextConfig.Rewriter, rewrite': NextConfig.Rewriter,
                                                   detection: ProjectLayout.Detection)
    requires Run(p, rewrite, detection).failure.None?
    ensures ToolingUntouched(Run(Run(p, rewrite, detection).project, rewrite', detection))
  {
    SuccessfulRun(p, rewrite, detection);
    assert Dependencies.CheckDependencies(p.packageJson).Ok?;
    var q := Run(p, rewrite, detection).project;
    ScaffoldingSetUpProject(q, p.dirs, rewrite', detection);
    RunAfterCheck(q, rewrite', detection, VscodeSettings.SettingsPath);
    RunAfterCheck(q, rewrite', detection, TsConfig.TsConfigPath);
  }

  /** The program as written, on a `src` project that uses the App Router under
      `src/app`: both packages are installed, then the run stops at the `mkdir`
      of `src/pages/api` and writes nothing. */
  lemma SrcAppRunAbortsAsWritten(p: Project, rewrite: NextConfig.Rewriter)
    requires Dependencies.CheckDependencies(p.packageJson).Ok?
    requires p.dirs == {["src"], ["src", "app"]}
    ensures Run(p, rewrite, ProjectLayout.AsWritten) == RunResult(Installs, p, Some(NoSuchFile(["src", "pages", "api"])))
  {
    ProjectLayout.SrcAppLayoutAbortsAsWritten();
    RunScaffoldEffects(p, rewrite, ProjectLayout.AsWritten);
  }

  /** With the intended detection the same project gets its App Router route and
      data node written. */
  lemma SrcAppRunScaffoldsIntended(p: Project, rewrite: NextConfig.Rewriter)
    requires Dependencies.CheckDependencies(p.packageJson).Ok?
    requires p.dirs == {["src"], ["src", "app"]}
    ensures var r := Run(p, rewrite, ProjectLayout.Intended);
            && |r.effects| >= 4
            && r.effects[2] == Write(["src", "app", "api", "fuse", "route.ts"], RouteModule(true))
            && r.effects[3] == Write(["src", "types", "User.ts"], UserTypeTemplate)
  {
    ProjectLayout.SrcAppLayoutScaffolded();
    RunScaffoldEffects(p, rewrite, ProjectLayout.Intended);
  }
}

=== FILE: dependencies.dfy ===
/** The check that the project is a Next.js application: `next` must be declared
    in `dependencies` or `devDependencies` of package.json. */
module Dependencies {
  import opened Wrappers
  import opened Paths
  import opened Failures
  import opened JsValues

  const PackageJsonPath: Path := ["package.json"]

  /** `{ ...dependencies, ...devDependencies }`. */
  function MergeDependencies(deps: Option<Json>, devDeps: Option<Json>): (all: map<string, Json>)
    ensures all.Keys == SpreadRead(deps).Keys + SpreadRead(devDeps).Keys
    ensures forall k :: k in SpreadRead(devDeps) ==> all[k] == SpreadRead(devDeps)[k]
    ensures forall k :: k in SpreadRead(deps) && k !in SpreadRead(devDeps) ==> all[k] == SpreadRead(deps)[k]
  {
    SpreadRead(deps) + SpreadRead(devDeps)
  }

  /** The declared version of `next` is present and truthy. */
  predicate DeclaresNext(all: map<string, Json>) {
    "next" in all && Truthy(all["next"])
  }

  /** Reads package.json and checks for `next`, returning the merged map.
      Destructuring `null` throws; any other non-object has neither field. */
  function CheckDependencies(packageJson: JsonFile): (r: Result<map<string, Json>, Failure>)
    ensures packageJson.Missing? ==> r == Err(NoSuchFile(PackageJsonPath))
    ensures packageJson.Malformed? ==> r == Err(SyntaxError)
    ensures packageJson == Parsed(Null) ==> r == Err(TypeError)
    ensures r.Ok? ==> DeclaresNext(r.value)
    // a parsed, non-null manifest passes exactly when its merged groups declare `next`
    ensures packageJson.Parsed? && !packageJson.value.Null? ==>
              var all := MergeDependencies(Property(packageJson.value, "dependencies").value,
                                           Property(packageJson.value, "devDependencies").value);
              (r.Ok? <==> DeclaresNext(all)) && (r.Ok? ==> r.value == all)
    ensures r == Err(MissingNext) <==>
              && packageJson.Parsed? && !packageJson.value.Null?
              && !DeclaresNext(MergeDependencies(Property(packageJson.value, "dependencies").value,
                                                 Property(packageJson.value, "devDependencies").value))
  {
    match packageJson
    case Missing => Err(NoSuchFile(PackageJsonPath))
    case Malformed => Err(SyntaxError)
    case Parsed(pkg) =>
      var deps :- Property(pkg, "dependencies");
      var devDeps := Property(pkg, "devDependencies").value;
      var all := MergeDependencies(deps, devDeps);
      if DeclaresNext(all) then Ok(all) else Err(MissingNext)
  }

  /** `next` is declared in the group `group` of the manifest `pkg`: the group is
      present, is an object, and has a `next` key. Spreading anything else cannot
      produce the plain key `next`. */
  predicate DeclaredIn(pkg: map<string, Json>, group: string) {
    group in pkg && pkg[group].Obj? && "next" in pkg[group].fields
  }

  /** A `next` entry in `devDependencies` decides on its own, whatever else the
      manifest holds: it overrides the one in `dependencies`, even when it is an
      empty string. */
  lemma DevDependencyDecides(pkg: map<string, Json>)
    requires DeclaredIn(pkg, "devDependencies")
    ensures CheckDependencies(Parsed(Obj(pkg))).Ok? <==> Truthy(pkg["devDependencies"].fields["next"])
  {
    var all := MergeDependencies(Property(Obj(pkg), "dependencies").value, Property(Obj(pkg), "devDependencies").value);
    assert all["next"] == pkg["devDependencies"].fields["next"];
  }

  /** Without a `next` entry in `devDependencies` (the group missing, not an
      object, or lacking the key), the one in `dependencies` decides. */
  lemma DependencyDecidesOtherwise(pkg: map<string, Json>)
    requires !DeclaredIn(pkg, "devDependencies")
    ensures CheckDependencies(Parsed(Obj(pkg))).Ok? <==>
              DeclaredIn(pkg, "dependencies") && Truthy(pkg["dependencies"].fields["next"])
  {
    var devDeps := Property(Obj(pkg), "devDependencies").value;
    var all := MergeDependencies(Property(Obj(pkg), "dependencies").value, devDeps);
    assert "next" !in SpreadRead(devDeps);
    if "next" in all {
      assert DeclaredIn(pkg, "dependencies") && all["next"] == pkg["dependencies"].fields["next"];
    }
  }

  /** A typical manifest, with a `name` and only production dependencies, passes. */
  lemma NamedManifestPasses()
    ensures CheckDependencies(Parsed(Obj(map["name" := Str("app"),
                                              "dependencies" := Obj(map["next" := Str("14.0.0")])]))).Ok?
  {
    DependencyDecidesOtherwise(map["name" := Str("app"), "dependencies" := Obj(map["next" := Str("14.0.0")])]);
  }

  /** A manifest that declares neither group never passes. */
  lemma NoGroupsFail(pkg: map<string, Json>)
    requires "dependencies" !in pkg && "devDependencies" !in pkg
    ensures CheckDependencies(Parsed(Obj(pkg))) == Err(MissingNext)
  {
  }
}

=== FILE: json.dfy ===
/** Parsed JSON values and the few JavaScript semantics the CLI applies to them:
    truthiness, property reads and object spread. */
module JsValues {
  import opened Wrappers
  import opened Failures

  /** A value produced by `JSON.parse`. Numbers are reals: the program only ever
      asks whether a number is zero. */
  datatype Json =
    | Null
    | Bool(b: bool)
    | Num(n: real)
    | Str(s: string)
    | Arr(items: seq<Json>)
    | Obj(fields: map<string, Json>)

  /** A JSON file as the program finds it on disk. */
  datatype JsonFile = Missing | Malformed | Parsed(value: Json)

  /** JavaScript truthiness of a JSON value. */
  predicate Truthy(v: Json) {
    match v
    case Null => false
    case Bool(b) => b
    case Num(n) => n != 0.0
    case Str(s) => s != ""
    case Arr(_) => true
    case Obj(_) => true
  }

  /** A property name that does not start with a digit and is not `length`: on
      arrays and strings such a name is never an own property. The names the
      program reads are also not inherited from any built-in prototype. */
  predicate PlainName(key: string) {
    key != "length" && (|key| == 0 || !('0' <= key[0] <= '9'))
  }

  predicate IsDigits(s: string) {
    |s| > 0 && forall i :: 0 <= i < |s| ==> '0' <= s[i] <= '9'
  }

  /** `v[key]`: reading a property of `null` throws; only an object has an own
      property with a plain name. */
  function Property(v: Json, key: string): (r: Result<Option<Json>, Failure>)
    requires PlainName(key)
    ensures r.Err? <==> v.Null?
    ensures r.Err? ==> r.error == TypeError
    ensures r.Ok? && r.value.Some? <==> v.Obj? && key in v.fields
    ensures r.Ok? && r.value.Some? ==> r.value.value == v.fields[key]
  {
    match v
    case Null => Err(TypeError)
    case Obj(f) => Ok(if key in f then Some(f[key]) else None)
    case _ => Ok(None)
  }

  /** The decimal spelling of a natural number, as used for array and string indices. */
  function Decimal(n: nat): (s: string)
    ensures |s| > 0
    ensures IsDigits(s)
    decreases n
  {
    if n < 10 then [DigitChar(n)] else Decimal(n / 10) + [DigitChar(n % 10)]
  }

  function DigitChar(d: nat): (c: char)
    requires d < 10
    ensures '0' <= c <= '9'
  {
    ('0' as int + d) as char
  }

  /** Reads a string of decimal digits back as a number. */
  function ParseDecimal(s: string): int
  {
    if |s| == 0 then 0 else ParseDecimal(s[..|s| - 1]) * 10 + (s[|s| - 1] as int - '0' as int)
  }

  lemma {:induction false} DecimalRoundTrip(n: nat)
    ensures ParseDecimal(Decimal(n)) == n
    decreases n
  {
    if n >= 10 {
      var s := Decimal(n);
      assert s[..|s| - 1] == Decimal(n / 10);
      DecimalRoundTrip(n / 10);
    }
  }

  /** Distinct indices have distinct spellings, so spreading an array or string
      yields one key per element. */
  lemma DecimalInjective()
    ensures forall i: nat, j: nat :: Decimal(i) == Decimal(j) ==> i == j
  {
    forall i: nat, j: nat | Decimal(i) == Decimal(j)
      ensures i == j
    {
      DecimalRoundTrip(i);
      DecimalRoundTrip(j);
    }
  }

  /** The decimal spellings of the indices below `n`. */
  function IndexKeys(n: nat): set<string>
  {
    set i: nat | i < n :: Decimal(i)
  }

  /** The own enumerable properties that `{...v}` copies: an object's fields, the
      elements of an array or the characters of a string under their decimal
      index, and nothing for `null`, booleans and numbers. */
  function Spread(v: Json): (r: map<string, Json>)
    ensures v.Obj? ==> r == v.fields
    ensures v.Arr? ==> r.Keys == IndexKeys(|v.items|) &&
                       forall i: nat :: i < |v.items| ==> r[Decimal(i)] == v.items[i]
    ensures v.Str? ==> r.Keys == IndexKeys(|v.s|) &&
                       forall i: nat :: i < |v.s| ==> r[Decimal(i)] == Str([v.s[i]])
    ensures v.Null? || v.Bool? || v.Num? ==> r == map[]
    // so a plain-named key of the spread is always an object's own field
    ensures forall k :: k in r && PlainName(k) ==> v.Obj? && k in v.fields
  {
    match v
    case Obj(f) => f
    case Arr(items) => Indexed(items)
    case Str(s) => Indexed(seq(|s|, i requires 0 <= i < |s| => Str([s[i]])))
    case _ => map[]
  }

  /** The elements of a sequence keyed by their decimal index. */
  function Indexed(items: seq<Json>): (r: map<string, Json>)
    ensures r.Keys == IndexKeys(|items|)
    ensures forall k :: k in r ==> IsDigits(k)
    ensures forall i: nat :: i < |items| ==> Decimal(i) in r && r[Decimal(i)] == items[i]
  {
    if |items| == 0 then map[]
    else
      var n := |items| - 1;
      DecimalInjective();
      IndexKeysStep(n);
      Indexed(items[..n])[Decimal(n) := items[n]]
  }

  lemma IndexKeysStep(n: nat)
    ensures IndexKeys(n + 1) == IndexKeys(n) + {Decimal(n)}
  {
    forall k | k in IndexKeys(n + 1)
      ensures k in IndexKeys(n) + {Decimal(n)}
    {
      var i: nat :| i < n + 1 && k == Decimal(i);
      if i < n {
        assert k in IndexKeys(n);
      }
    }
  }

  /** `{...x}` where `x` may be `undefined`, which spreads nothing. */
  function SpreadRead(v: Option<Json>): (r: map<string, Json>)
    ensures v.None? ==> r == map[]
  {
    if v.Some? then Spread(v.value) else map[]
  }
}

=== FILE: next_config.dfy ===
/** Which Next.js configuration file is handed to the config rewrite, and where
    the rewritten code goes. The rewrite itself is a parameter. */
module NextConfig {
  import opened Wrappers
  import opened Paths

  datatype ConfigFile = NextConfigJs | NextConfigMjs {
    function FileName(): string {
      match this
      case NextConfigJs => "next.config.js"
      case NextConfigMjs => "next.config.mjs"
    }

    /** The `isMjs` option passed to the rewrite. */
    predicate IsMjs() {
      NextConfigMjs?
    }

    function FilePath(): Path {
      [FileName()]
    }
  }

  /** The config rewrite: from the source text and the `isMjs` flag to the
      transformed code. `None` means it threw, which the program swallows;
      `Some("")` stands for a result without code. */
  type Rewriter = (string, bool) -> Option<string>

  /** `next.config.js` wins over `next.config.mjs`. */
  function SelectConfig(hasJs: bool, hasMjs: bool): (f: Option<ConfigFile>)
    ensures f.None? <==> !hasJs && !hasMjs
    ensures f == Some(NextConfigJs) <==> hasJs
    ensures f == Some(NextConfigMjs) <==> !hasJs && hasMjs
  {
    if hasJs then Some(NextConfigJs)
    else if hasMjs then Some(NextConfigMjs)
    else None
  }

  const ManualHint := "No next config found, you can add the fuse plugin yourself by importing it from \"fuse/next/plugin\"!"

  datatype ConfigOutcome =
    | Rewritten(target: ConfigFile, code: string)  // write `code` to `target`
    | Untouched                                    // the rewrite threw or produced no code
    | NoConfig(message: string)                    // no config file: show a hint

  /** The next-config step given the contents of the two candidate files
      (`None` when absent). */
  function ConfigStep(js: Option<string>, mjs: Option<string>, rewrite: Rewriter): (r: ConfigOutcome)
    ensures r.Rewritten? ==> r.target == NextConfigJs && r.code != ""
    ensures r.NoConfig? <==> js.None? && mjs.None?
    ensures r.NoConfig? ==> r.message == ManualHint
    ensures js.Some? ==> (r.Rewritten? <==> rewrite(js.value, false).Some? && rewrite(js.value, false).value != "")
    ensures js.Some? && r.Rewritten? ==> r.code == rewrite(js.value, false).value
    ensures js.None? && mjs.Some? ==>
              (r.Rewritten? <==> rewrite(mjs.value, true).Some? && rewrite(mjs.value, true).value != "")
    ensures js.None? && mjs.Some? && r.Rewritten? ==> r.code == rewrite(mjs.value, true).value
  {
    match SelectConfig(js.Some?, mjs.Some?)
    case None => NoConfig(ManualHint)
    case Some(file) =>
      var source := if file.IsMjs() then mjs.value else js.value;
      var result := rewrite(source, file.IsMjs());
      // the output always goes to next.config.js, and only when there is code
      if result.Some? && result.value != "" then Rewritten(NextConfigJs, result.value) else Untouched
  }

  /** After a rewrite of `next.config.mjs` both files exist, and a later run
      reads the freshly written `next.config.js`. */
  lemma RewrittenMjsShadowed(mjs: string, rewrite: Rewriter, rewrite': Rewriter)
    requires ConfigStep(None, Some(mjs), rewrite).Rewritten?
    ensures var code := ConfigStep(None, Some(mjs), rewrite).code;
            ConfigStep(Some(code), Some(mjs), rewrite') == ConfigStep(Some(code), None, rewrite')
  {
  }
}

=== FILE: project_layout.dfy ===
/** Where the boilerplate API route and the sample `User.ts` data node go, and
    the directories created for them. Directories are a set of project-relative
    paths; the project root (the empty path) always exists. */
module ProjectLayout {
  import opened Wrappers
  import opened Paths
  import opened Failures
  import RouteSnippet

  predicate DirExists(dirs: set<Path>, d: Path) {
    d == [] || d in dirs
  }

  function Parent(p: Path): Path
    requires |p| > 0
  {
    p[..|p| - 1]
  }

  predicate IsPrefix(p: Path, q: Path) {
    |p| <= |q| && q[..|p|] == p
  }

  /** A directory listing closed under parents, as every real tree is. */
  predicate IsTree(dirs: set<Path>) {
    forall d :: d in dirs && |d| > 1 ==> d[..|d| - 1] in dirs
  }

  /** `src` for projects that keep their code there, else the root. */
  function Base(isUsingSrc: bool): Path {
    if isUsingSrc then ["src"] else []
  }

  /** The router directory: `app` for the App Router, `pages` otherwise. */
  function RouterDir(isUsingSrc: bool, useAppDir: bool): (d: Path)
    ensures d == Base(isUsingSrc) + [if useAppDir then "app" else "pages"]
  {
    if isUsingSrc then
      if useAppDir then ["src", "app"] else ["src", "pages"]
    else
      if useAppDir then ["app"] else ["pages"]
  }

  /** The route file, by the four-way case split of the program. */
  function RoutePath(isUsingSrc: bool, useAppDir: bool): (p: Path)
    ensures |p| > |RouterDir(isUsingSrc, useAppDir)|
    ensures p[..|RouterDir(isUsingSrc, useAppDir)|] == RouterDir(isUsingSrc, useAppDir)
    ensures p[|p| - 1] == "route.ts" <==> useAppDir
    ensures p[|p| - 1] == "fuse.ts" <==> !useAppDir
    ensures p[0] == "src" <==> isUsingSrc
  {
    if isUsingSrc then
      if useAppDir then ["src", "app", "api", "fuse", "route.ts"] else ["src", "pages", "api", "fuse.ts"]
    else
      if useAppDir then ["app", "api", "fuse", "route.ts"] else ["pages", "api", "fuse.ts"]
  }

  /** The four routes of the scaffolding part of `createFuseApp`: `api/fuse/route.ts` under an App
      Router directory, `api/fuse.ts` under a Pages Router one. */
  lemma RoutePathTable(isUsingSrc: bool, useAppDir: bool)
    ensures RoutePath(isUsingSrc, useAppDir) ==
            RouterDir(isUsingSrc, useAppDir) + (if useAppDir then ["api", "fuse", "route.ts"] else ["api", "fuse.ts"])
  {
  }

  /** The sample data-node file. */
  function TypesPath(isUsingSrc: bool): (p: Path)
    ensures p == Base(isUsingSrc) + ["types", "User.ts"]
  {
    if isUsingSrc then ["src", "types", "User.ts"] else ["types", "User.ts"]
  }

  /** The directories made (when missing) before the route is written, in order. */
  function RouteDirs(isUsingSrc: bool, useAppDir: bool): (ds: seq<Path>)
    ensures |ds| > 0 && forall i :: 0 <= i < |ds| ==> |ds[i]| > 0
    ensures Parent(ds[0]) == RouterDir(isUsingSrc, useAppDir)
    ensures forall i :: 0 < i < |ds| ==> Parent(ds[i]) == ds[i - 1]
    ensures ds[|ds| - 1] == Parent(RoutePath(isUsingSrc, useAppDir))
  {
    if isUsingSrc then
      if useAppDir then [["src", "app", "api"], ["src", "app", "api", "fuse"]] else [["src", "pages", "api"]]
    else
      if useAppDir then [["app", "api"], ["app", "api", "fuse"]] else [["pages", "api"]]
  }

  function TypesDir(isUsingSrc: bool): (d: Path)
    ensures d == Parent(TypesPath(isUsingSrc))
  {
    if isUsingSrc then ["src", "types"] else ["types"]
  }

  /** `if (!existsSync(d)) await fs.mkdir(d)`: the `mkdir` is not recursive, so it
      throws ENOENT when the parent directory is missing. */
  function EnsureDir(dirs: set<Path>, d: Path): (r: Result<set<Path>, Failure>)
    requires |d| > 0
    ensures r.Ok? <==> DirExists(dirs, d) || DirExists(dirs, Parent(d))
    ensures r.Ok? ==> r.value == dirs + {d}
    ensures r.Err? ==> r.error == NoSuchFile(d)
  {
    if DirExists(dirs, d) then Ok(dirs)
    else if DirExists(dirs, Parent(d)) then Ok(dirs + {d})
    else Err(NoSuchFile(d))
  }

  /** The `EnsureDir` calls for a chain of nested directories, in order. */
  function EnsureChain(dirs: set<Path>, ds: seq<Path>): (r: Result<set<Path>, Failure>)
    requires |ds| > 0 && forall i :: 0 <= i < |ds| ==> |ds[i]| > 0
    requires forall i :: 0 < i < |ds| ==> Parent(ds[i]) == ds[i - 1]
    ensures r.Ok? <==> DirExists(dirs, ds[0]) || DirExists(dirs, Parent(ds[0]))
    ensures r.Ok? ==> dirs <= r.value
    ensures r.Ok? ==> forall d :: d in r.value ==> d in dirs || d in ds
    ensures r.Ok? ==> forall d :: d in ds ==> d in r.value
    ensures r.Err? ==> r.error == NoSuchFile(ds[0])
    decreases |ds|
  {
    var first :- EnsureDir(dirs, ds[0]);
    if |ds| == 1 then Ok(first)
    else
      var rest := EnsureChain(first, ds[1..]);
      assert forall d :: d in ds[1..] ==> d in ds;
      assert forall d :: d in ds ==> d == ds[0] || d in ds[1..];
      rest
  }

  /** The directory work of the scaffolding step: the route's chain of
      directories, then the types directory, whose parent already exists. */
  function MakeDirs(dirs: set<Path>, chain: seq<Path>, typesDir: Path): (r: Result<set<Path>, Failure>)
    requires |chain| > 0 && forall i :: 0 <= i < |chain| ==> |chain[i]| > 0
    requires forall i :: 0 < i < |chain| ==> Parent(chain[i]) == chain[i - 1]
    requires |typesDir| > 0 && DirExists(dirs, Parent(typesDir))
    ensures r.Ok? <==> DirExists(dirs, chain[0]) || DirExists(dirs, Parent(chain[0]))
    ensures r.Err? ==> r.error == NoSuchFile(chain[0])
    ensures r.Ok? ==> dirs <= r.value
    ensures r.Ok? ==> forall d :: d in r.value ==> d in dirs || d in chain || d == typesDir
    ensures r.Ok? ==> (forall d :: d in chain ==> d in r.value) && typesDir in r.value
    ensures r.Ok? ==> chain[|chain| - 1] in r.value
  {
    var withRoute :- EnsureChain(dirs, chain);
    EnsureDir(withRoute, typesDir)
  }

  /** Once all its directories exist, the directory work changes nothing. */
  lemma MakeDirsSettles(dirs: set<Path>, chain: seq<Path>, typesDir: Path)
    requires |chain| > 0 && forall i :: 0 <= i < |chain| ==> |chain[i]| > 0
    requires forall i :: 0 < i < |chain| ==> Parent(chain[i]) == chain[i - 1]
    requires |typesDir| > 0 && typesDir in dirs && DirExists(dirs, Parent(typesDir))
    requires forall d :: d in chain ==> d in dirs
    ensures MakeDirs(dirs, chain, typesDir) == Ok(dirs)
  {
    assert chain[0] in chain;
    var r := MakeDirs(dirs, chain, typesDir);
    assert r.value == dirs;
  }

  /** What the scaffolding step leaves behind. */
  datatype Scaffold = Scaffold(dirs: set<Path>, route: Path, appRouter: bool, types: Path)

  /** The scaffolding part of `createFuseApp` for given answers to "is there a `src` directory" and "use the
      App Router": make the route directories, write the route, make the types
      directory, write `User.ts`. */
  function ScaffoldWith(dirs: set<Path>, isUsingSrc: bool, useAppDir: bool): (r: Result<Scaffold, Failure>)
    requires isUsingSrc ==> ["src"] in dirs
    ensures r.Ok? <==> DirExists(dirs, RouteDirs(isUsingSrc, useAppDir)[0]) ||
                       DirExists(dirs, RouterDir(isUsingSrc, useAppDir))
    ensures r.Err? ==> r.error == NoSuchFile(RouteDirs(isUsingSrc, useAppDir)[0])
    ensures r.Ok? ==> && r.value.route == RoutePath(isUsingSrc, useAppDir)
                      && r.value.types == TypesPath(isUsingSrc)
                      && r.value.appRouter == useAppDir
    ensures r.Ok? ==> dirs <= r.value.dirs
  {
    assert Parent(TypesDir(isUsingSrc)) == Base(isUsingSrc);
    var withTypes :- MakeDirs(dirs, RouteDirs(isUsingSrc, useAppDir), TypesDir(isUsingSrc));
    Ok(Scaffold(withTypes, RoutePath(isUsingSrc, useAppDir), useAppDir, TypesPath(isUsingSrc)))
  }

  /** Scaffolding adds only the route and types directories, and writes each
      file into a directory that exists by then. */
  lemma ScaffoldWithDirs(dirs: set<Path>, isUsingSrc: bool, useAppDir: bool)
    requires isUsingSrc ==> ["src"] in dirs
    requires ScaffoldWith(dirs, isUsingSrc, useAppDir).Ok?
    ensures var s := ScaffoldWith(dirs, isUsingSrc, useAppDir).value;
            && (forall d :: d in s.dirs ==> d in dirs || d in RouteDirs(isUsingSrc, useAppDir) || d == TypesDir(isUsingSrc))
            && (forall d :: d in RouteDirs(isUsingSrc, useAppDir) ==> d in s.dirs)
            && TypesDir(isUsingSrc) in s.dirs
            && DirExists(s.dirs, Parent(s.route)) && DirExists(s.dirs, Parent(s.types))
  {
    assert Parent(TypesDir(isUsingSrc)) == Base(isUsingSrc);
  }

  function UsesSrc(dirs: set<Path>): bool
  {
    ["src"] in dirs
  }

  /** How the App Router is detected: `AsWritten` is the program's check for
      `app` at the project root; `Intended` looks for `src/app` in a project that
      keeps its code in `src`. */
  datatype Detection = AsWritten | Intended

  function AppDir(dirs: set<Path>, detection: Detection): bool
  {
    match detection
    case AsWritten => ["app"] in dirs
    case Intended => if UsesSrc(dirs) then ["src", "app"] in dirs else ["app"] in dirs
  }

  /** The scaffolding part of `createFuseApp`: detect `src` and the router, then
      scaffold. */
  function ScaffoldStep(dirs: set<Path>, detection: Detection): (r: Result<Scaffold, Failure>)
    ensures r.Err? ==> r.error == NoSuchFile(RouteDirs(UsesSrc(dirs), AppDir(dirs, detection))[0])
    ensures r.Ok? ==> && r.value.route == RoutePath(UsesSrc(dirs), AppDir(dirs, detection))
                      && r.value.types == TypesPath(UsesSrc(dirs))
                      && r.value.appRouter == AppDir(dirs, detection)
                      && dirs <= r.value.dirs
  {
    ScaffoldWith(dirs, UsesSrc(dirs), AppDir(dirs, detection))
  }

  /** In a real tree the step succeeds exactly when the router directory the
      detection picked exists. */
  lemma ScaffoldStepSucceeds(dirs: set<Path>, detection: Detection)
    requires IsTree(dirs)
    ensures ScaffoldStep(dirs, detection).Ok? <==> RouterDir(UsesSrc(dirs), AppDir(dirs, detection)) in dirs
  {
    ScaffoldWithSucceeds(dirs, UsesSrc(dirs), AppDir(dirs, detection));
  }

  /** In a real tree the step succeeds exactly when the chosen router directory
      exists. */
  lemma ScaffoldWithSucceeds(dirs: set<Path>, isUsingSrc: bool, useAppDir: bool)
    requires isUsingSrc ==> ["src"] in dirs
    ensures IsTree(dirs) ==> (ScaffoldWith(dirs, isUsingSrc, useAppDir).Ok? <==> RouterDir(isUsingSrc, useAppDir) in dirs)
  {
    var first := RouteDirs(isUsingSrc, useAppDir)[0];
    var router := RouterDir(isUsingSrc, useAppDir);
    assert Parent(first) == router && |router| > 0;
    var r := ScaffoldWith(dirs, isUsingSrc, useAppDir);
    assert r.Ok? <==> DirExists(dirs, first) || DirExists(dirs, router);
    if IsTree(dirs) && first in dirs {
      assert first[..|first| - 1] == router;
    }
  }

  /** As written, a project with its App Router under `src/app` (and no root
      `app`) gets a Pages-Router route, and the run aborts on `mkdir src/pages/api`. */
  lemma SrcAppLayoutAbortsAsWritten()
    ensures IsTree({["src"], ["src", "app"]})
    ensures ScaffoldStep({["src"], ["src", "app"]}, AsWritten) == Err(NoSuchFile(["src", "pages", "api"]))
  {
    var dirs := {["src"], ["src", "app"]};
    forall d | d in dirs && |d| > 1
      ensures d[..|d| - 1] in dirs
    {
      assert d == ["src"] || d == ["src", "app"];
      assert d == ["src", "app"] && d[..1] == ["src"];
    }
    assert ["app"] !in dirs && ["src", "pages"] !in dirs && ["src", "pages", "api"] !in dirs;
  }

  /** As written, the step succeeds exactly when the directory it picked exists,
      which in a `src` project is decided by the root `app`. */
  lemma ScaffoldAsWrittenSucceeds(dirs: set<Path>)
    requires IsTree(dirs)
    ensures ScaffoldStep(dirs, AsWritten).Ok? <==>
              if ["src"] in dirs then
                if ["app"] in dirs then ["src", "app"] in dirs else ["src", "pages"] in dirs
              else ["app"] in dirs || ["pages"] in dirs
  {
    ScaffoldStepSucceeds(dirs, AsWritten);
  }

  /** The project has a router directory where its code lives. */
  predicate RouterPresent(dirs: set<Path>) {
    if ["src"] in dirs then ["src", "app"] in dirs || ["src", "pages"] in dirs
    else ["app"] in dirs || ["pages"] in dirs
  }

  /** With the router detected where the code lives, scaffolding succeeds exactly
      when the project has a router directory, and then puts the route inside
      that existing directory. */
  lemma IntendedScaffoldSucceeds(dirs: set<Path>)
    requires IsTree(dirs)
    ensures ScaffoldStep(dirs, Intended).Ok? <==> RouterPresent(dirs)
    ensures ScaffoldStep(dirs, Intended).Ok? ==>
              var router := RouterDir(UsesSrc(dirs), AppDir(dirs, Intended));
              router in dirs && IsPrefix(router, ScaffoldStep(dirs, Intended).value.route)
  {
    ScaffoldStepSucceeds(dirs, Intended);
  }

  /** The corrected step handles the layout that aborts as written. */
  lemma SrcAppLayoutScaffolded()
    ensures ScaffoldStep({["src"], ["src", "app"]}, Intended).Ok?
    ensures ScaffoldStep({["src"], ["src", "app"]}, Intended).value.route == ["src", "app", "api", "fuse", "route.ts"]
  {
    var dirs := {["src"], ["src", "app"]};
    assert UsesSrc(dirs) && AppDir(dirs, Intended);
  }

  /** Scaffolding again, over the directories the first pass left (plus the
      editor-settings directory), picks the same files and creates nothing. */
  lemma ScaffoldSettles(dirs: set<Path>, dirs': set<Path>, detection: Detection)
    requires ScaffoldStep(dirs, detection).Ok?
    requires dirs' == ScaffoldStep(dirs, detection).value.dirs ||
             dirs' == ScaffoldStep(dirs, detection).value.dirs + {[".vscode"]}
    ensures ScaffoldStep(dirs', detection).Ok?
    ensures ScaffoldStep(dirs', detection).value == ScaffoldStep(dirs, detection).value.(dirs := dirs')
  {
    var isUsingSrc, useAppDir := UsesSrc(dirs), AppDir(dirs, detection);
    ScaffoldWithDirs(dirs, isUsingSrc, useAppDir);
    DetectionUnchanged(dirs, dirs', detection);
    ScaffoldWithSettlesAfter(dirs, dirs', isUsingSrc, useAppDir);
  }

  /** Scaffolding the tree a successful scaffold left behind succeeds again, with
      a route module and the `User.ts` data node. */
  lemma SettledScaffoldFiles(dirs: set<Path>, dirs': set<Path>, detection: Detection)
    requires ScaffoldStep(dirs, detection).Ok?
    requires dirs' == ScaffoldStep(dirs, detection).value.dirs ||
             dirs' == ScaffoldStep(dirs, detection).value.dirs + {[".vscode"]}
    ensures ScaffoldStep(dirs', detection).Ok?
    ensures var s := ScaffoldStep(dirs', detection).value;
            && |s.route| > 0 && s.route[|s.route| - 1] in {"route.ts", "fuse.ts"}
            && |s.types| > 0 && s.types[|s.types| - 1] == "User.ts"
  {
    ScaffoldSettles(dirs, dirs', detection);
  }

  /** For fixed answers to the detection, scaffolding the tree a successful
      scaffold left behind creates nothing. */
  lemma ScaffoldWithSettlesAfter(dirs: set<Path>, dirs': set<Path>, isUsingSrc: bool, useAppDir: bool)
    requires isUsingSrc ==> ["src"] in dirs
    requires ScaffoldWith(dirs, isUsingSrc, useAppDir).Ok?
    requires ScaffoldWith(dirs, isUsingSrc, useAppDir).value.dirs <= dirs'
    ensures ScaffoldWith(dirs', isUsingSrc, useAppDir) == Ok(ScaffoldWith(dirs, isUsingSrc, useAppDir).value.(dirs := dirs'))
  {
    ScaffoldWithDirs(dirs, isUsingSrc, useAppDir);
    ScaffoldWithSettles(dirs', isUsingSrc, useAppDir);
  }

  /** Once the route and types directories exist, scaffolding creates nothing. */
  lemma ScaffoldWithSettles(dirs: set<Path>, isUsingSrc: bool, useAppDir: bool)
    requires isUsingSrc ==> ["src"] in dirs
    requires forall d :: d in RouteDirs(isUsingSrc, useAppDir) ==> d in dirs
    requires TypesDir(isUsingSrc) in dirs
    ensures ScaffoldWith(dirs, isUsingSrc, useAppDir) ==
            Ok(Scaffold(dirs, RoutePath(isUsingSrc, useAppDir), useAppDir, TypesPath(isUsingSrc)))
  {
    var typesDir := TypesDir(isUsingSrc);
    assert Parent(typesDir) == Base(isUsingSrc);
    MakeDirsSettles(dirs, RouteDirs(isUsingSrc, useAppDir), typesDir);
  }

  /** The directories either detection looks at are never among those the
      scaffold (or the editor-settings step) creates. */
  lemma DetectionUnchanged(dirs: set<Path>, dirs': set<Path>, detection: Detection)
    requires dirs <= dirs'
    requires forall d :: d in dirs' ==>
               || d in dirs || d in RouteDirs(UsesSrc(dirs), AppDir(dirs, detection))
               || d == TypesDir(UsesSrc(dirs)) || d == [".vscode"]
    ensures UsesSrc(dirs') == UsesSrc(dirs) && AppDir(dirs', detection) == AppDir(dirs, detection)
  {
  }

  /** The route file's name and its contents agree on the router: an App Router
      `route.ts` gets the `GET`/`POST` exports, a Pages Router `fuse.ts` the
      default export. */
  lemma RouteMatchesSnippet(dirs: set<Path>, detection: Detection)
    requires ScaffoldStep(dirs, detection).Ok?
    ensures var s := ScaffoldStep(dirs, detection).value;
            RouteSnippet.RouterOf(RouteSnippet.CreateSnippet(s.appRouter)) == Some(s.route[|s.route| - 1] == "route.ts")
  {
    RouteSnippet.SnippetRouterRoundTrip(ScaffoldStep(dirs, detection).value.appRouter);
  }
}

=== FILE: route_snippet.dfy ===
/** The boilerplate API route written into the project, for the App Router
    (`appDir`) or the Pages Router. */
module RouteSnippet {
  import opened Wrappers

  const AppHandler := "createAPIRouteHandler"
  const PagesHandler := "createPagesRouteHandler"
  const AppExports := "export const GET = handler" + "\n" + "export const POST = handler"
  const PagesExports := "export default handler"

  predicate StartsWith(s: string, prefix: string) {
    |prefix| <= |s| && s[..|prefix|] == prefix
  }

  predicate EndsWith(s: string, suffix: string) {
    |suffix| <= |s| && s[|s| - |suffix|..] == suffix
  }

  /** The factory the route imports from `fuse/next`. */
  function HandlerName(appDir: bool): string
  {
    if appDir then AppHandler else PagesHandler
  }

  function ImportLine(name: string): string
  {
    "import { " + name + " } from 'fuse/next'" + "\n"
  }

  /** The import line, a line of two spaces, the handler binding and another line
      of two spaces: one name is both imported and called. */
  function Head(name: string): string
  {
    ImportLine(name) + "  \n" + "const handler = " + name + "()" + "\n" + "  \n"
  }

  /** `createSnippet(appDir)`. */
  function CreateSnippet(appDir: bool): (s: string)
    ensures StartsWith(s, ImportLine(HandlerName(appDir)))
    ensures StartsWith(s, Head(HandlerName(appDir)))
    ensures EndsWith(s, AppExports + "\n") <==> appDir
    ensures EndsWith(s, PagesExports + "\n") <==> !appDir
  {
    var s := Head(HandlerName(appDir)) + (if appDir then AppExports else PagesExports) + "\n";
    SnippetShape(HandlerName(appDir), if appDir then AppExports else PagesExports);
    if appDir then AppSnippetEnding(); s
    else PagesSnippetEnding(); s
  }

  /** A head followed by an exports line starts with the head and its import
      line and ends with the exports line. */
  lemma SnippetShape(name: string, exports: string)
    ensures var s := Head(name) + exports + "\n";
            && StartsWith(s, ImportLine(name)) && StartsWith(s, Head(name))
            && EndsWith(s, exports + "\n")
  {
    var head, s := Head(name), Head(name) + exports + "\n";
    assert s[..|head|] == head;
    assert s[..|ImportLine(name)|] == head[..|ImportLine(name)|];
    assert s[|s| - |exports + "\n"|..] == exports + "\n";
  }

  /** The App Router snippet does not end with the default export. */
  lemma AppSnippetEnding()
    ensures !EndsWith(Head(AppHandler) + AppExports + "\n", PagesExports + "\n")
  {
    var s := Head(AppHandler) + AppExports + "\n";
    // the last 23 characters start with the `t` of `const`, not the `e` of `export`
    assert s[|s| - 23] == AppExports[|AppExports| - 22] == 't';
  }

  /** The Pages Router snippet does not end with the `GET`/`POST` exports. */
  lemma PagesSnippetEnding()
    ensures !EndsWith(Head(PagesHandler) + PagesExports + "\n", AppExports + "\n")
  {
    var head := Head(PagesHandler);
    var s := head + PagesExports + "\n";
    // the last 55 characters start inside the handler binding
    assert |head| == 100 && s[|s| - 55] == head[68] == ' ';
    assert s[|s| - 55..][0] != (AppExports + "\n")[0];
  }

  /** Reads back which router a generated snippet targets. */
  function RouterOf(s: string): (appDir: Option<bool>)
  {
    if EndsWith(s, AppExports + "\n") then Some(true)
    else if EndsWith(s, PagesExports + "\n") then Some(false)
    else None
  }

  /** The router is recoverable from the snippet, so the two snippets differ. */
  lemma SnippetRouterRoundTrip(appDir: bool)
    ensures RouterOf(CreateSnippet(appDir)) == Some(appDir)
  {
  }
}

=== FILE: tsconfig.dfy ===
/** `tsconfig.json`: register the GraphQL language-service plugin in
    `compilerOptions.plugins` unless an entry with its name is already there. */
module TsConfig {
  import opened Wrappers
  import opened Paths
  import opened Failures
  import opened JsValues

  const TsConfigPath: Path := ["tsconfig.json"]

  const GraphqlspName := "@0no-co/graphqlsp"

  /** The plugin entry that is appended. */
  const GraphqlspEntry: Json := Obj(map[
    "name" := Str(GraphqlspName),
    "schema" := Str("./schema.graphql"),
    "disableTypegen" := Bool(true),
    "templateIsCallExpression" := Bool(true),
    "template" := Str("graphql")])

  /** `plugin.name === '@0no-co/graphqlsp'` for an element that is not `null`. */
  predicate IsGraphqlsp(plugin: Json) {
    plugin.Obj? && "name" in plugin.fields && plugin.fields["name"] == Str(GraphqlspName)
  }

  /** No element before index `i` is `null`. */
  predicate NoNullBefore(plugins: seq<Json>, i: int)
    requires 0 <= i <= |plugins|
  {
    forall j :: 0 <= j < i ==> !plugins[j].Null?
  }

  /** No element before index `i` is the plugin entry. */
  predicate NoMatchBefore(plugins: seq<Json>, i: int)
    requires 0 <= i <= |plugins|
  {
    forall j :: 0 <= j < i ==> !IsGraphqlsp(plugins[j])
  }

  /** Some plugin entry comes before any `null` element. */
  predicate Found(plugins: seq<Json>) {
    exists i :: 0 <= i < |plugins| && IsGraphqlsp(plugins[i]) && NoNullBefore(plugins, i)
  }

  /** Some `null` element comes before any plugin entry. */
  predicate Blocked(plugins: seq<Json>) {
    exists i :: 0 <= i < |plugins| && plugins[i].Null? && NoMatchBefore(plugins, i)
  }

  /** No element is `null` and none is the plugin entry. */
  predicate Clean(plugins: seq<Json>) {
    forall i :: 0 <= i < |plugins| ==> !plugins[i].Null? && !IsGraphqlsp(plugins[i])
  }

  /** `plugins.find(plugin => plugin.name === GraphqlspName)`, scanning from the
      front: it stops at the first match, and reading `.name` of a `null`
      element met before any match throws. */
  function FindGraphqlsp(plugins: seq<Json>): (r: Result<bool, Failure>)
    ensures r == Ok(true) <==> Found(plugins)
    ensures r == Ok(false) <==> Clean(plugins)
    ensures r.Err? <==> Blocked(plugins)
    ensures r.Err? ==> r.error == TypeError
  {
    if |plugins| == 0 then Ok(false)
    else if plugins[0].Null? then
      FirstNull(plugins);
      Err(TypeError)
    else if IsGraphqlsp(plugins[0]) then
      FirstMatch(plugins);
      Ok(true)
    else
      ShiftFound(plugins);
      ShiftBlocked(plugins);
      FindGraphqlsp(plugins[1..])
  }

  /** A leading `null` is met before any match. */
  lemma FirstNull(plugins: seq<Json>)
    requires |plugins| > 0 && plugins[0].Null?
    ensures !Found(plugins) && !Clean(plugins) && Blocked(plugins)
  {
    assert NoMatchBefore(plugins, 0);
    forall i | 0 < i < |plugins|
      ensures !NoNullBefore(plugins, i)
    {
      assert plugins[0].Null?;
    }
  }

  /** A leading match is found before any `null`. */
  lemma FirstMatch(plugins: seq<Json>)
    requires |plugins| > 0 && IsGraphqlsp(plugins[0])
    ensures Found(plugins) && !Clean(plugins) && !Blocked(plugins)
  {
    assert NoNullBefore(plugins, 0);
    forall i | 0 < i < |plugins|
      ensures !NoMatchBefore(plugins, i)
    {
      assert IsGraphqlsp(plugins[0]);
    }
  }

  /** Past a first element that is neither `null` nor a match, a match is found
      in the list iff it is found in the tail. */
  lemma ShiftFound(plugins: seq<Json>)
    requires |plugins| > 0 && !plugins[0].Null? && !IsGraphqlsp(plugins[0])
    ensures Found(plugins) <==> Found(plugins[1..])
    ensures Clean(plugins) <==> Clean(plugins[1..])
  {
    var tail := plugins[1..];
    if Found(plugins) {
      var i :| 0 <= i < |plugins| && IsGraphqlsp(plugins[i]) && NoNullBefore(plugins, i);
      assert i > 0 && tail[i - 1] == plugins[i];
      assert NoNullBefore(tail, i - 1) by {
        forall j | 0 <= j < i - 1 ensures !tail[j].Null? { assert tail[j] == plugins[j + 1]; }
      }
    }
    if Found(tail) {
      var i :| 0 <= i < |tail| && IsGraphqlsp(tail[i]) && NoNullBefore(tail, i);
      assert plugins[i + 1] == tail[i];
      assert NoNullBefore(plugins, i + 1) by {
        forall j | 0 < j < i + 1 ensures !plugins[j].Null? { assert plugins[j] == tail[j - 1]; }
      }
    }
    if Clean(tail) {
      forall i | 0 < i < |plugins| ensures !plugins[i].Null? && !IsGraphqlsp(plugins[i]) {
        assert plugins[i] == tail[i - 1];
      }
    }
  }

  /** Past a first element that is neither `null` nor a match, a `null` blocks
      the list iff it blocks the tail. */
  lemma ShiftBlocked(plugins: seq<Json>)
    requires |plugins| > 0 && !plugins[0].Null? && !IsGraphqlsp(plugins[0])
    ensures Blocked(plugins) <==> Blocked(plugins[1..])
  {
    var tail := plugins[1..];
    if Blocked(plugins) {
      var i :| 0 <= i < |plugins| && plugins[i].Null? && NoMatchBefore(plugins, i);
      assert i > 0 && tail[i - 1] == plugins[i];
      assert NoMatchBefore(tail, i - 1) by {
        forall j | 0 <= j < i - 1 ensures !IsGraphqlsp(tail[j]) { assert tail[j] == plugins[j + 1]; }
      }
    }
    if Blocked(tail) {
      var i :| 0 <= i < |tail| && tail[i].Null? && NoMatchBefore(tail, i);
      assert plugins[i + 1] == tail[i];
      assert NoMatchBefore(plugins, i + 1) by {
        forall j | 0 < j < i + 1 ensures !IsGraphqlsp(plugins[j]) { assert plugins[j] == tail[j - 1]; }
      }
    }
  }

  /** `tsConfig.compilerOptions?.plugins`, where the outer `None` is `undefined`. */
  function PluginsRead(compilerOptions: Option<Json>): Option<Json>
  {
    if compilerOptions.None? || compilerOptions.value.Null? then None
    else Property(compilerOptions.value, "plugins").value
  }

  /** `plugins?.find(...)`: `undefined` and `null` short-circuit to "not found";
      anything other than an array has no `find` method, so calling it throws. */
  function LookUpGraphqlsp(plugins: Option<Json>): (r: Result<bool, Failure>)
  {
    match plugins
    case None => Ok(false)
    case Some(Null) => Ok(false)
    case Some(Arr(items)) => FindGraphqlsp(items)
    case Some(_) => Err(TypeError)
  }

  /** The existing plugin list as the source reads it: the array, or none at all. */
  function ExistingPlugins(plugins: Option<Json>): seq<Json>
  {
    if plugins.Some? && plugins.value.Arr? then plugins.value.items else []
  }

  /** The configuration already lists the plugin, so the update is skipped. */
  predicate Registered(tsConfig: Json) {
    && tsConfig.Obj? && "compilerOptions" in tsConfig.fields
    && var co := tsConfig.fields["compilerOptions"];
    && co.Obj? && "plugins" in co.fields
    && var plugins := co.fields["plugins"];
    && plugins.Arr? && Found(plugins.items)
  }

  /** The update throws: `tsConfig` is `null`, `plugins` is present but neither
      `null` nor an array, or a `null` plugin comes before any match. */
  predicate Throws(tsConfig: Json) {
    || tsConfig.Null?
    || (&& tsConfig.Obj? && "compilerOptions" in tsConfig.fields
        && var co := tsConfig.fields["compilerOptions"];
        && co.Obj? && "plugins" in co.fields
        && var plugins := co.fields["plugins"];
        && !plugins.Null?
        && (!plugins.Arr? || Blocked(plugins.items)))
  }

  /** `updated` is `tsConfig` spread into a new object whose `compilerOptions` is
      the previous one spread, with `plugins` replaced by the previous list followed by
      exactly one plugin entry. */
  predicate AppendedEntry(tsConfig: Json, updated: map<string, Json>)
    requires !tsConfig.Null?
  {
    var co := Property(tsConfig, "compilerOptions").value;
    && updated.Keys == Spread(tsConfig).Keys + {"compilerOptions"}
    && (forall k :: k in Spread(tsConfig) && k != "compilerOptions" ==> updated[k] == Spread(tsConfig)[k])
    && updated["compilerOptions"].Obj?
    && var co' := updated["compilerOptions"].fields;
    && co'.Keys == SpreadRead(co).Keys + {"plugins"}
    && (forall k :: k in SpreadRead(co) && k != "plugins" ==> co'[k] == SpreadRead(co)[k])
    && co'["plugins"] == Arr(ExistingPlugins(PluginsRead(co)) + [GraphqlspEntry])
  }

  /** The update of a parsed `tsconfig.json`: `Ok(None)` leaves it alone,
      `Ok(Some(m))` writes `m`, `Err` is the error that aborts the run. */
  function UpdateTsConfig(tsConfig: Json): (r: Result<Option<map<string, Json>>, Failure>)
    ensures r.Err? <==> Throws(tsConfig)
    ensures r.Err? ==> r.error == TypeError
    ensures r == Ok(None) <==> Registered(tsConfig)
    ensures r.Ok? && r.value.Some? ==> AppendedEntry(tsConfig, r.value.value)
  {
    var co :- Property(tsConfig, "compilerOptions");
    var plugins := PluginsRead(co);
    var found :- LookUpGraphqlsp(plugins);
    if found then Ok(None)
    else
      var plugins' := ExistingPlugins(plugins) + [GraphqlspEntry];
      Ok(Some(Spread(tsConfig)["compilerOptions" := Obj(SpreadRead(co)["plugins" := Arr(plugins')])]))
  }

  /** Running the update on its own output finds the plugin and changes nothing. */
  lemma UpdateIdempotent(tsConfig: Json)
    requires UpdateTsConfig(tsConfig).Ok? && UpdateTsConfig(tsConfig).value.Some?
    ensures UpdateTsConfig(Obj(UpdateTsConfig(tsConfig).value.value)) == Ok(None)
  {
    var updated := UpdateTsConfig(tsConfig).value.value;
    var co := Property(tsConfig, "compilerOptions").value;
    var previous := ExistingPlugins(PluginsRead(co));
    assert AppendedEntry(tsConfig, updated);
    var plugins := updated["compilerOptions"].fields["plugins"].items;
    assert plugins == previous + [GraphqlspEntry];
    assert FindGraphqlsp(previous) == Ok(false) by {
      if PluginsRead(co).Some? && PluginsRead(co).value.Arr? {
        assert LookUpGraphqlsp(PluginsRead(co)) == FindGraphqlsp(previous);
      }
    }
    assert IsGraphqlsp(plugins[|previous|]);
    assert NoNullBefore(plugins, |previous|);
    assert Registered(Obj(updated));
  }

  /** The whole tsconfig step: a missing file is skipped, a malformed one makes
      `JSON.parse` throw. */
  function TsConfigStep(file: JsonFile): (r: Result<Option<map<string, Json>>, Failure>)
    ensures file.Missing? ==> r == Ok(None)
    ensures file.Malformed? ==> r == Err(SyntaxError)
    ensures file.Parsed? ==> (r.Err? <==> Throws(file.value)) && (r.Err? ==> r.error == TypeError)
    ensures file.Parsed? ==> (r == Ok(None) <==> Registered(file.value))
    ensures file.Parsed? && r.Ok? && r.value.Some? ==> AppendedEntry(file.value, r.value.value)
  {
    match file
    case Missing => Ok(None)
    case Malformed => Err(SyntaxError)
    case Parsed(tsConfig) => UpdateTsConfig(tsConfig)
  }
}

=== FILE: vscode_settings.dfy ===
/** The editor settings file `.vscode/settings.json`: two keys are forced so the
    editor uses the workspace TypeScript, every other setting is kept. */
module VscodeSettings {
  import opened Wrappers
  import opened Paths
  import opened Failures
  import opened JsValues

  const SettingsPath: Path := [".vscode", "settings.json"]

  const TsdkKey := "typescript.tsdk"
  const TsdkPath := "node_modules/typescript/lib"
  const PromptKey := "typescript.enablePromptUseWorkspaceTsdk"

  /** Both forced keys are present with their required values. */
  predicate HasForcedKeys(m: map<string, Json>) {
    && TsdkKey in m && m[TsdkKey] == Str(TsdkPath)
    && PromptKey in m && m[PromptKey] == Bool(true)
  }

  /** `generateVscodeSettings(settings = {})`: the settings spread into a new
      object, then the two forced keys written over it. */
  function GenerateVscodeSettings(settings: Json := Obj(map[])): (r: map<string, Json>)
    ensures HasForcedKeys(r)
    ensures r.Keys == Spread(settings).Keys + {TsdkKey, PromptKey}
    ensures forall k :: k in Spread(settings) && k != TsdkKey && k != PromptKey ==>
              r[k] == Spread(settings)[k]
  {
    Spread(settings)[TsdkKey := Str(TsdkPath)][PromptKey := Bool(true)]
  }

  /** Called without an argument, the function yields exactly the two forced keys. */
  lemma DefaultSettings()
    ensures GenerateVscodeSettings().Keys == {TsdkKey, PromptKey}
    ensures HasForcedKeys(GenerateVscodeSettings())
  {
  }

  /** Regenerating generated settings changes nothing. */
  lemma GenerateIdempotent(settings: Json)
    ensures GenerateVscodeSettings(Obj(GenerateVscodeSettings(settings))) == GenerateVscodeSettings(settings)
  {
  }

  /** The guard in front of rewriting an existing settings file: true when either
      forced key is absent or has another value (`!==`); reading a property of
      `null` throws. */
  function NeedsRewrite(settings: Json): (r: Result<bool, Failure>)
    ensures r.Err? <==> settings.Null?
    ensures r.Err? ==> r.error == TypeError
    ensures r == Ok(false) <==> settings.Obj? && HasForcedKeys(settings.fields)
  {
    var tsdk :- Property(settings, TsdkKey);
    // `||` short-circuits; when the first read succeeded the second one cannot throw
    Ok(tsdk != Some(Str(TsdkPath)) || Property(settings, PromptKey).value != Some(Bool(true)))
  }

  /** The guard skips the write exactly when the write would not change the
      settings object. */
  lemma GuardSkipsOnlyNoOps(settings: Json)
    ensures NeedsRewrite(settings) == Ok(false) <==>
              settings.Obj? && GenerateVscodeSettings(settings) == settings.fields
  {
    if settings.Obj? && GenerateVscodeSettings(settings) == settings.fields {
      assert HasForcedKeys(settings.fields);
    }
  }

  /** What the run does with the settings file: `Ok(Some(m))` writes `m`,
      `Ok(None)` leaves the file alone. A missing file is created from the
      defaults; an existing one is rewritten only when the guard says so. */
  function SettingsStep(file: JsonFile): (r: Result<Option<map<string, Json>>, Failure>)
    ensures file.Missing? ==> r == Ok(Some(GenerateVscodeSettings()))
    ensures file.Parsed? && r.Ok? && r.value.Some? ==> r.value.value == GenerateVscodeSettings(file.value)
    ensures file.Malformed? ==> r == Err(SyntaxError)
    // a parsed file fails only when it is `null`, and then with a TypeError
    ensures file.Parsed? ==> (r.Err? <==> file.value.Null?)
    ensures file.Parsed? && r.Err? ==> r.error == TypeError
    ensures r.Ok? && r.value.Some? ==> HasForcedKeys(r.value.value)
    ensures r == Ok(None) <==> file.Parsed? && file.value.Obj? && HasForcedKeys(file.value.fields)
    ensures file.Parsed? && file.value.Obj? && r.Ok? && r.value.Some? ==>
              forall k :: k in file.value.fields && k != TsdkKey && k != PromptKey ==>
                k in r.value.value && r.value.value[k] == file.value.fields[k]
  {
    match file
    case Missing => Ok(Some(GenerateVscodeSettings()))
    case Malformed => Err(SyntaxError)
    case Parsed(settings) =>
      var rewrite :- NeedsRewrite(settings);
      if rewrite then Ok(Some(GenerateVscodeSettings(settings))) else Ok(None)
  }

  /** Once the step has written the file, running it again finds nothing to do. */
  lemma SettingsStepSettles(file: JsonFile)
    requires SettingsStep(file).Ok?
    ensures var after := if SettingsStep(file).value.Some? then Parsed(Obj(SettingsStep(file).value.value)) else file;
            SettingsStep(after) == Ok(None)
  {
  }
}

=== FILE: wrappers.dfy ===
/** Optional values and results with an error channel, usable with `:-`. */
module Wrappers {

  datatype Option<+T> = None | Some(value: T)

  datatype Result<+T, +E> = Ok(value: T) | Err(error: E) {

    predicate IsFailure() {
      Err?
    }

    function PropagateFailure<U>(): Result<U, E>
      requires Err?
    {
      Err(error)
    }

    function Extract(): T
      requires Ok?
    {
      value
    }
  }
}

/** How files and directories are named. */
module Paths {

  /** A path relative to the project root, one directory or file name per segment. */
  type Path = seq<string>
}

/** What can stop a run of the scaffolding CLI. */
module Failures {
  import opened Paths

  datatype Failure =
    | TypeError           // a property read on `null`, or a call of something that is not a function
    | SyntaxError         // `JSON.parse` of a malformed file
    | NoSuchFile(path: Path)  // ENOENT from a file read or a non-recursive `mkdir`
    | MissingNext         // `next` is not declared in package.json
}
